=== FILE: README.md ===
# D365 file catalog — a Dafny model

D365 is a local file catalog. A Node service walks one directory at a time and
records its entries in a SQLite table `files`. It also answers searches and
directory listings from that table, and stores per-file tags and an importance
level that must survive rescans. A React client shows the catalog. It offers
breadcrumbs, a folder picker, file cards with tags, and a preview dialog.

This project models the service core and the pure logic of the client:

- **`Catalog`** (`catalog.dfy`): a row of `files`, the table as a map from id
  to row, the Windows path rules (`path.sep` is `\`), and the table invariant.
  The invariant says each row's id is the hash of its path, and its path is its
  parent joined with its name.
- **`Scanner`** (`scanner.dfy`): `scanDirectory`'s mark / upsert / sweep pass
  and its result counts. The disk is an input: whether the directory can be
  accessed, and its listing or a read failure.
- **`ScanProperties`** (`scan_properties.dfy`): what a scan of a well-formed
  table guarantees. It keeps the invariant, succeeds, leaves exactly the listed
  children, and is idempotent.
- **`SqlLike`** (`sql_like.dfy`): SQLite's `LIKE`, with `%`, `_` and ASCII case
  folding.
- **`Query`** (`query.dfy`): `getFiles` (search and listing, with their
  `ORDER BY` and `LIMIT`), `getFileDetails` and `updateFileMetadata`.
- **`CatalogProperties`** (`catalog_properties.dfy`): properties spanning
  scans and queries. These are the ones the service's own scripts exercise:
  metadata reads back and survives a rescan.
- **`FileCard`**, **`AppPaths`**, **`DirectoryPicker`**, **`PreviewModal`**:
  the client helpers. They cover tag canonicalisation and display, the
  extension badge and icon, breadcrumbs and the breadcrumb-click fallback, the
  `fetchFiles` parameters, the picker's "up" and fetch state, and the preview
  classification with its loading/error state.
- **`Text`** and **`Wrappers`**: the JavaScript string operations used
  throughout and `Option`/`Result`. Those operations are `split` on a
  character class (single separators and runs), `join`, `trim`,
  `filter(Boolean)`, `pop`, ASCII case mapping, substring search and BINARY
  text ordering.

Modelling choices:

- Environment inputs:
  - `path.resolve` is a function parameter.
  - The MD5 id is the injective constructor `Md5(path)`.
  - Every row a scan writes is stamped with one text `now`. The service takes `CURRENT_TIMESTAMP` afresh for each entry's statement; "## Left out" says what this changes.
  - The result of every network request is an `outcome` parameter.
- SQL:
  - `NULL` sorts below every text, so `mtime DESC` puts it last.
  - Text columns compare with the BINARY collation, i.e. lexicographically.

## Model

| member | source | states |
|---|---|---|
| `Catalog.JoinPathInjective` | server/services/fileService.js:64 | joining a directory with a plain entry name is injective, so distinct (directory, name) pairs get distinct paths |
| `Scanner.Scan` | server/services/fileService.js:20-113 | an inaccessible directory fails with `Directory not found: <resolved path>` and leaves the table untouched; a read failure after the mark leaves only the mark; an entry whose path another row holds (with a different id) fails the scan with that path before the sweep, so a failed scan deletes no row; a completed scan reports the entry counts and leaves every listed entry stamped with this scan's single `now` and no unlisted row under the directory; each listed entry's row holds the entry's stat (size, `mtime`, `birthtime`), or size 0 and no times when the stat failed, taken from the last entry of that name; a row kept by any scan changes in size, times and scan stamp only, so tags and importance survive; every row added is a fresh row for a listed entry; rows outside the directory that no listed entry names are untouched |
| `Scanner.UpsertAll` | server/services/fileService.js:9-18 | upserting the entries keeps every existing key; an existing row is either untouched or refreshed in size, times and stamp only; a new row has the defaults (owner `System`, empty tags, importance `normal`); the pass stops only at a listed entry that has no row while another row holds its path, and reports that path; otherwise every listed id is present afterwards; when the pass completes, each listed id's row holds the stat of the last entry of that name, or size 0 and no times when that stat failed |
| `Scanner.Tally` | server/services/fileService.js:63-81 | `directories` is the number of directory entries and `files` the number of the other entries; together they count every entry; errors stay 0; all entries count as directories exactly when all are directories |
| `Scanner.ChildIdInjective` | server/services/fileService.js:64-65 | two plain names under the same directory get the same id only when they are equal |
| `ScanProperties.UpsertAllOnWellFormed` | server/services/fileService.js:63-96 | on a well-formed table and a listing of distinct plain names, the upsert never clashes; its keys are the old keys plus the listed ids; each listed row is its old row (or a new one) refreshed; every other row is unchanged |
| `ScanProperties.ScanSucceeds` | server/services/fileService.js:28-112 | a reachable, readable directory with distinct plain entry names always scans successfully, with the counts of its listing |
| `ScanProperties.ScanKeepsWellFormed` | server/db.js:11-12 | every scan outcome keeps each row's id equal to the hash of its path and its path equal to its parent joined with its name |
| `ScanProperties.ScanChildrenExact` | server/services/fileService.js:55-104 | after a completed scan each listed entry has a row under the directory with its name, and every row under the directory is a listed entry |
| `ScanProperties.ScanIdempotent` | server/services/fileService.js:20-113 | scanning the same unchanged directory twice at the same time gives the same table and result as scanning once |
| `ScanProperties.ScanRestamps` | server/services/fileService.js:55-104 | rescanning an unchanged directory at any other time gives the same result, and the same table except that the directory's rows carry the new scan's stamp; sizes, times, tags and importance are kept |
| `ScanProperties.ScanKeepsOtherDirectories` | server/services/fileService.js:55-104 | on a well-formed table, every scan outcome leaves each row of another directory exactly as it was: the mark and the sweep are scoped by `parent_path`, and a listed entry's id never names a row elsewhere |
| `ScanProperties.BareDriveScansRoot` | server/services/fileService.js:23-25 | scanning `X:` is scanning `X:\` |
| `ScanProperties.ScanOfEmptyDirectory` | server/services/fileService.js:55-104 | scanning an empty directory deletes every row under it, keeps all others, and reports zero counts |
| `SqlLike.LikeAroundContains` | server/services/fileService.js:119-120 | for a query without `%` or `_`, `x LIKE '%q%'` holds exactly when `q` occurs in `x`, ignoring ASCII case |
| `Query.BeforeTransitive` | server/services/fileService.js:119 | both `ORDER BY` clauses are transitive strict orders |
| `Query.Insert` | server/services/fileService.js:134 | inserting into a sorted sequence keeps it sorted and adds exactly that row |
| `Query.Select` | server/services/fileService.js:134-135 | a statement without `LIMIT` returns every matching row exactly once, in `ORDER BY` order |
| `Query.GetFiles` | server/services/fileService.js:115-139 | a query searches name and tags: results are ranked and number min(matches, 1000), with no matching row left out that ranks strictly above one returned; otherwise a parent (after the drive rule) lists exactly its rows, directories first then by name; otherwise the result is empty |
| `Query.GetFileDetails` | server/services/fileService.js:141-143 | the row with that id, absent exactly when no row has it |
| `Query.UpdateMetadata` | server/services/fileService.js:145-149 | answers true exactly when the id exists; sets that row's tags and importance as given, with no validation; changes no other column and no other row |
| `CatalogProperties.MetadataReadsBack` | server/full_system_test.js:85-94 | reading a row after updating it shows the new tags and importance and every other column as before; an unknown id reads back as absent |
| `CatalogProperties.RowIsChild` | server/services/fileService.js:64-65 | in a well-formed table a row's id is the id a scan computes for its name under its parent |
| `CatalogProperties.MetadataSurvivesRescan` | server/test_tags.js:20-45 | after tags and importance are set, a rescan of the row's directory that still lists the entry succeeds and keeps them |
| `CatalogProperties.ListingAfterScan` | server/services/fileService.js:121-135 | after a completed scan the listing of that directory shows exactly the listed names, each once |
| `CatalogProperties.SearchIsSubstringTest` | server/services/fileService.js:117-120 | a wildcard-free query matches the search's `WHERE` clause (before the 1000-row limit) for a row exactly when it occurs, ignoring ASCII case, in the row's name or tags |
| `CatalogProperties.TaggedRowIsFound` | server/services/fileService.js:145-149 | after a tag update, the row matches the search's `WHERE` clause (before the 1000-row limit) for any wildcard-free piece of its tags |
| `CatalogProperties.ImportanceRanksAsText` | server/services/fileService.js:119 | the search ranks importance as text: `normal` above `medium` above `low` above `high` |
| `CatalogProperties.ListingDirectoriesFirst` | server/services/fileService.js:134 | in a listing no file precedes a directory, and rows of one type come in name order |
| `CatalogProperties.SearchNewestFirst` | server/services/fileService.js:119 | in a search importance texts never increase; among equal importance and type, later modification times come first and rows without one come last |
| `FileCard.NormalizeTags` | client/src/components/FileCard.jsx:72-77 | splitting on runs of `,`/`#` gives the same tags as splitting on single separators and dropping the empty pieces; the saved text is those tags joined with `,` |
| `FileCard.DisplayTags` | client/src/components/FileCard.jsx:127-130 | the displayed tags are the tags of the text: trimmed, non-empty, in order, duplicates kept; none for an empty text |
| `FileCard.NormalizedShape` | client/src/components/FileCard.jsx:72-77 | the saved text holds no `#`, neither starts nor ends with `,`, is empty exactly when there are no tags, and its comma-separated pieces are the tags |
| `FileCard.NormalizeIdempotent` | client/src/components/FileCard.jsx:72-80 | saving an already saved text stores it unchanged |
| `FileCard.DisplayOfNormalized` | client/src/components/FileCard.jsx:127-130 | a saved text displays the same tags as the text typed, and those tags join back into the saved text |
| `FileCard.SingleTagKept` | client/src/components/FileCard.jsx:72-77 | a trimmed separator-free text is one tag and saved as is: spaces do not separate tags |
| `FileCard.DuplicatesKept` | client/src/components/FileCard.jsx:72-77 | saving keeps repeated tags (`x,x` stays `x,x`) |
| `FileCard.CollapsedTags` | client/src/components/FileCard.jsx:182-190 | no tag box for an empty text; otherwise the first two display tags (all of them when fewer), and the ellipsis exactly when some tag is hidden |
| `FileCard.Extension` | client/src/components/FileCard.jsx:13-15 | `DIR` for a name without a dot; otherwise the upper-cased text after some dot that has no dot after it |
| `FileCard.ExtensionAfterLastDot` | client/src/components/FileCard.jsx:13-15 | the badge of `a.b` is `b` upper-cased whenever `b` holds no dot, even when `b` is empty |
| `FileCard.IconFor` | client/src/components/FileCard.jsx:19-44 | a folder icon exactly for directories; for a file, the code, image or video icon exactly when the lower-cased badge is in that list |
| `FileCard.IconIgnoresCase` | client/src/components/FileCard.jsx:22 | a file's badge and icon do not change with the case of its name |
| `FileCard.NoDotIsDocument` | client/src/components/FileCard.jsx:13-17 | a file without a dot shows the badge `DIR` and the document icon |
| `AppPaths.Breadcrumbs` | client/src/App.jsx:159-165 | no crumbs for an empty path; otherwise one crumb per non-empty segment; names are those segments and hold neither separator; the first crumb's path is its name |
| `AppPaths.CrumbPathsExtend` | client/src/App.jsx:162-164 | each crumb's path is the previous crumb's path, `\`, and its own name |
| `AppPaths.CrumbPathsAreRelative` | client/src/App.jsx:161-164 | no crumb path starts with a separator: `/home/x` gives `home` and `home\x` |
| `AppPaths.LastCrumbIsPath` | client/src/App.jsx:159-165 | a path with `\` separators and no empty segment is the path of its own last crumb |
| `AppPaths.DriveCrumb` | client/src/App.jsx:162-164 | under a drive the first crumb is `X:` with path `X:`, which the service's drive rule turns into `X:\` |
| `AppPaths.BreadcrumbTarget` | client/src/App.jsx:154-157 | a click never opens an empty path; the fallback applies only when the parts taken are one empty part (opens `\`) or there are none (opens `undefined\`) |
| `AppPaths.ClickOpensCrumb` | client/src/App.jsx:154-157 | clicking crumb i of the current trail opens exactly crumb i's path |
| `AppPaths.FetchParams` | client/src/App.jsx:91-93 | the query is sent exactly when non-empty; the parent exactly when non-empty and there is no query |
| `AppPaths.ParamsPickBranch` | client/src/App.jsx:87-102 | never both parameters at once, and reading absent ones as empty gives the service the query, or the parent when there is no query |
| `DirectoryPicker.Up` | client/src/components/DirectoryPicker.jsx:31-53 | nothing from an empty path; the drive list from `X:\`; otherwise a `/`-free path whose segments are the path's segments without the last one |
| `DirectoryPicker.UpOfChild` | client/src/components/DirectoryPicker.jsx:34-37 | going up from `p\name` opens `p`; with an empty name, `C:\foo\` goes up to `C:\foo` |
| `DirectoryPicker.UpRewritesSlashes` | client/src/components/DirectoryPicker.jsx:34-37 | `/home/x` goes up to `\home` |
| `DirectoryPicker.FetchItems` | client/src/components/DirectoryPicker.jsx:10-21 | the spinner ends off; the path and entries are replaced only when the request succeeds |
| `DirectoryPicker.HandleUp` | client/src/components/DirectoryPicker.jsx:31-53 | "up" from the drive list changes nothing; otherwise it ends with the spinner off, showing the parent and its entries when the request succeeds, and the same folder and entries when it fails |
| `DirectoryPicker.FailedFetchKeepsState` | client/src/components/DirectoryPicker.jsx:16-20 | a failed request leaves folder and entries as they were |
| `DirectoryPicker.NavigateThenUp` | client/src/components/DirectoryPicker.jsx:27-53 | opening a child folder and going up returns to the folder it was opened from |
| `PreviewModal.ExtOf` | client/src/components/PreviewModal.jsx:17 | the lower-cased text after the last dot; the whole name lower-cased when it has no dot |
| `PreviewModal.Classify` | client/src/components/PreviewModal.jsx:19-43 | a kind other than unsupported has the extension in its list; unsupported exactly when no list holds it |
| `PreviewModal.ListsDisjoint` | client/src/components/PreviewModal.jsx:19-43 | no extension is in two lists |
| `PreviewModal.ClassifyByList` | client/src/components/PreviewModal.jsx:19-43 | the kind whose list holds the extension is the kind chosen, so the chain's order does not matter |
| `PreviewModal.ClassifyIgnoresCase` | client/src/components/PreviewModal.jsx:17 | the extension and the kind do not change with the case of the name |
| `PreviewModal.DottedNameClassified` | client/src/components/PreviewModal.jsx:17-21 | `<anything>.JPG` is an image |
| `PreviewModal.UndottedNameClassified` | client/src/components/PreviewModal.jsx:17-29 | a name without a dot is classified by the whole name: `pdf` is a PDF |
| `PreviewModal.Open` | client/src/components/PreviewModal.jsx:16-44 | the kind is set; the spinner stays on exactly for text, Word and Excel files; content and error are untouched |
| `PreviewModal.FailureMessage` | client/src/components/PreviewModal.jsx:46-83 | every fetching kind has a non-empty failure message |
| `PreviewModal.Settle` | client/src/components/PreviewModal.jsx:46-83 | a settled fetch turns the spinner off and keeps the kind; success sets the content, failure sets the kind's message as the error |
| `PreviewModal.PreviewSettles` | client/src/components/PreviewModal.jsx:8-83 | from a freshly mounted dialog the spinner always ends off; a settled fetch has content exactly on success and an error exactly on failure |

## Behaviour worth noting

The model follows the code in each case:

- **Search ranking.** The search orders `importance DESC` as text, so `normal`
  ranks above `high` (`CatalogProperties.ImportanceRanksAsText`), and
  `high` comes last.
- **`updateFileMetadata`.** It neither validates the importance nor normalises
  tags. It answers `false` for an unknown id instead of failing with a
  not-found error. Tag normalisation happens only in the file card before
  saving.
- **Stat failures.** A failed `stat` of one entry is swallowed silently. The
  entry is recorded with size 0 and no times, and `errors` stays 0
  (`Scanner.Tally`). `errors` is incremented only when the whole pass fails,
  and that failure is rethrown, so a returned count never holds an error.
- **Tag normalisation comment.** The comment beside it promises splitting on
  spaces and removing duplicates. The code does neither
  (`FileCard.SingleTagKept`, `FileCard.DuplicatesKept`).
- **Breadcrumb clicks.** The rendered breadcrumbs open `crumb.path` directly.
  `handleBreadcrumbClick` is defined but not wired to them.
  `AppPaths.ClickOpensCrumb` shows both give the same folder for the trail's
  own segments.

## Left out

- `browseSystem` (drive probing and folder listing for the picker) and the Express routing of `server/server.js`: I/O glue; the picker's requests are modelled by their outcome.
- Create, rename and delete of files: `fileService.js` defines no such operations; the category filter of the client is not sent to the service.
- `formatSize`, `formatDate`, React rendering, theme and language toggles, `localStorage`, `ContextMenu.jsx`, `ActionModal.jsx`: presentation only.
- The mammoth and XLSX conversions of the preview dialog: foreign libraries; their result or failure is the `outcome` parameter of `PreviewModal.Settle`.
- The spinner of `fetchFiles` in `App.jsx` and the scan spinner: presentation only; `fetchFiles`' request is modelled by `AppPaths.FetchParams`.
- Concurrency: overlapping requests and scans are not modelled; each operation runs on a consistent table.
- The unused `scanTime` of `scanDirectory`, and UNC (`\\server\share`) roots, whose path rules the model does not cover.
- Scanner.Scan: each entry's `insertFile.run` is its own statement, so SQLite takes `CURRENT_TIMESTAMP` anew for every entry. An `await fs.stat` runs between statements, so a scan that crosses a second boundary stamps its rows with different texts. The model deliberately stamps every row of one scan with the single `now`, so the uniform stamp in `Scanner.Confirmed` is stronger than the source guarantees. The sweep is unaffected: it deletes only rows whose stamp is still the mark `0`, whatever text the others carry.
- ScanProperties.ScanRestamps: the new stamp it states for the directory's rows is the single `now2` of the model; in the source each row carries the time of its own statement.
- ScanProperties.ScanIdempotent: "the same time" is the model's single `now`; in the source two scans agree on stamps only when every statement of both falls in the same second.
- PreviewModal.ExtOf: lower-cases ASCII letters only, where JavaScript's `toLowerCase` maps all of Unicode.
- FileCard.Extension: upper-cases ASCII letters only, where JavaScript's `toUpperCase` maps all of Unicode.
- SqlLike.Like: folds ASCII letters only, which is also what SQLite's default `LIKE` does; no `ESCAPE` clause is used by the service.
- Query.GetFiles: `getFiles` reads rows in SQLite's order for ties of the `ORDER BY` keys; the model allows any order of tied rows.
- Scanner.UpsertAll: when a path clash stops the pass, the stat held by the rows written before the clash is not stated; only that they are kept or refreshed.
- Scanner.Refreshed: states that a refreshed row keeps its user metadata and carries this scan's stamp, leaving size and times open; the stat a completed scan writes is stated by `Scanner.UpsertAll` and `Scanner.Scan`.
- Scanner.FreshRow: states that a new row has the entry's identity and the defaults, leaving size and times open for the same reason.

=== FILE: app_paths.dfy ===
/** The path helpers of client/src/App.jsx: the breadcrumb trail of the
    current folder, the folder a breadcrumb click opens, and which query
    parameters `fetchFiles` sends. */
module AppPaths {
  import opened Wrappers
  import opened Text
  import opened Catalog
  import Query

  /** One breadcrumb: the segment shown and the folder it opens. */
  datatype Crumb = Crumb(name: string, path: string)

  /** The segments of the current path: `/` turned into `\`, split on `\`,
      empty segments dropped. */
  function Segments(current: string): (parts: seq<string>)
    ensures forall k :: 0 <= k < |parts| ==> parts[k] != "" && NoneIn(parts[k], {'/', '\\'})
  {
    var normalized := ReplaceChar(current, '/', '\\');
    ReplaceCharRemoves(current, '/', '\\');
    SplitKeepsNoneIn(normalized, {'\\'}, {'/'});
    var pieces := Split(normalized, {'\\'});
    var parts := NonEmpty(pieces);
    assert forall k :: 0 <= k < |parts| ==> parts[k] in pieces by {
      forall k | 0 <= k < |parts|
        ensures parts[k] in pieces
      {
        assert parts[k] in parts;
      }
    }
    parts
  }

  /** `getBreadcrumbs()`: nothing for an empty path; otherwise one crumb per
      segment, whose path joins the segments up to and including it with
      `\`. */
  function Breadcrumbs(current: string): (crumbs: seq<Crumb>)
    ensures current == "" ==> crumbs == []
    ensures current != "" ==> |crumbs| == |Segments(current)|
    ensures forall i :: 0 <= i < |crumbs| ==>
              crumbs[i].name == Segments(current)[i]
              && NoneIn(crumbs[i].name, {'/', '\\'}) && crumbs[i].name != ""
    ensures |crumbs| > 0 ==> crumbs[0].path == crumbs[0].name
  {
    if current == "" then []
    else
      var parts := Segments(current);
      seq(|parts|, i requires 0 <= i < |parts| => Crumb(parts[i], Join("\\", parts[..i + 1])))
  }

  /** Each crumb's path is the previous crumb's path, a backslash and its own
      name, so every crumb's path is a prefix of the next one's. */
  lemma CrumbPathsExtend(current: string, i: nat)
    requires i + 1 < |Breadcrumbs(current)|
    ensures var c := Breadcrumbs(current);
            c[i + 1].path == c[i].path + "\\" + c[i + 1].name
  {
    var parts := Segments(current);
    CrumbAt(current, i);
    CrumbAt(current, i + 1);
    assert parts[..i + 2] == parts[..i + 1] + [parts[i + 1]];
    JoinSnoc("\\", parts[..i + 1], parts[i + 1]);
  }

  /** The crumb at `i` shows the `i`-th segment and opens the segments up to
      and including it. */
  lemma CrumbAt(current: string, i: nat)
    requires i < |Breadcrumbs(current)|
    ensures var parts := Segments(current);
      && current != "" && i < |parts|
      && Breadcrumbs(current)[i] == Crumb(parts[i], Join("\\", parts[..i + 1]))
  {
  }

  /** No crumb path starts with a separator: a leading `/` or `\` is lost, so
      `/home/x` gives the crumbs `home` and `home\x`. */
  lemma CrumbPathsAreRelative(current: string, i: nat)
    requires i < |Breadcrumbs(current)|
    ensures var p := Breadcrumbs(current)[i].path; |p| > 0 && p[0] != '/' && p[0] != '\\'
  {
    var parts := Segments(current);
    CrumbAt(current, i);
    JoinStartsWithFirst(parts[..i + 1], "\\");
    assert parts[0][0] !in {'/', '\\'};
  }

  /** The last crumb opens the whole current path with separators unified and
      empty segments dropped: a path in that form is its own last crumb. */
  lemma LastCrumbIsPath(current: string)
    requires current != "" && NoneIn(current, {'/'})
    requires forall k :: 0 <= k < |Split(current, {'\\'})| ==> Split(current, {'\\'})[k] != ""
    ensures var c := Breadcrumbs(current); |c| > 0 && c[|c| - 1].path == current
  {
    SegmentsOfUnified(current);
    JoinOfSplit(current, '\\');
    LastCrumbOfSegments(current, Segments(current));
  }

  /** The last crumb opens the join of all segments. */
  lemma LastCrumbOfSegments(current: string, parts: seq<string>)
    requires current != "" && parts == Segments(current) && Join("\\", parts) == current
    ensures var c := Breadcrumbs(current); |c| > 0 && c[|c| - 1].path == current
  {
    CrumbAt(current, |parts| - 1);
    assert parts[..|parts|] == parts;
  }

  /** A path free of `/` and of empty segments is segmented by splitting it
      on `\`. */
  lemma SegmentsOfUnified(current: string)
    requires NoneIn(current, {'/'})
    requires forall k :: 0 <= k < |Split(current, {'\\'})| ==> Split(current, {'\\'})[k] != ""
    ensures Segments(current) == Split(current, {'\\'})
  {
    var normalized := ReplaceChar(current, '/', '\\');
    assert normalized == current;
    var pieces := Split(current, {'\\'});
    assert forall p :: p in pieces ==> p != "";
    NonEmptyOfNonEmpty(pieces);
  }

  /** A path on a drive gives a first crumb `X:` whose path has no trailing
      separator; the server's drive-letter rule turns it into the root `X:\`. */
  lemma DriveCrumb(d: string, rest: string)
    requires IsBareDrive(d)
    ensures var c := Breadcrumbs(d + "\\" + rest);
            |c| > 0 && c[0] == Crumb(d, d) && WithDriveSep(c[0].path) == d + "\\"
  {
    var s := d + "\\" + rest;
    var normalized := ReplaceChar(s, '/', '\\');
    assert normalized == d + "\\" + ReplaceChar(rest, '/', '\\');
    assert normalized[..2] == d;
    FirstInAt(normalized, {'\\'}, 2);
    assert normalized[3..] == ReplaceChar(rest, '/', '\\');
    var pieces := Split(normalized, {'\\'});
    assert pieces[0] == d;
    assert NonEmpty(pieces) == [d] + NonEmpty(pieces[1..]) by {
      assert pieces == [pieces[0]] + pieces[1..];
    }
  }

  /** `handleBreadcrumbClick(index, parts)`: the first `index + 1` parts joined
      with `\`, or, when that is empty, the first part and a backslash. The
      join is empty only when the parts taken are a lone empty part (the
      click then opens `\`) or there are no parts at all (JavaScript's
      `undefined` then becomes the text `undefined`). */
  function BreadcrumbTarget(index: nat, parts: seq<string>): (r: string)
    ensures r != ""
    ensures |parts| == 0 ==> r == "undefined\\"
    ensures |parts| > 0 && parts[0] == "" && (index == 0 || |parts| == 1) ==> r == "\\"
    ensures |parts| > 0 && !(parts[0] == "" && (index == 0 || |parts| == 1)) ==>
              r == Join("\\", parts[..Query.Min(index + 1, |parts|)])
  {
    var taken := parts[..Query.Min(index + 1, |parts|)];
    var joined := Join("\\", taken);
    JoinIsEmpty("\\", taken);
    if joined != "" then joined
    else if |parts| > 0 then parts[0] + "\\"
    else "undefined\\"
  }

  /** Clicking a crumb of the current trail opens exactly that crumb's path. */
  lemma ClickOpensCrumb(current: string, index: nat)
    requires index < |Breadcrumbs(current)|
    ensures BreadcrumbTarget(index, Segments(current)) == Breadcrumbs(current)[index].path
  {
    var parts := Segments(current);
    CrumbAt(current, index);
    assert parts[0] != "";
    assert Query.Min(index + 1, |parts|) == index + 1;
  }

  /** The query parameters of a `fetchFiles` request. */
  datatype Params = Params(query: Option<string>, parentPath: Option<string>)

  /** `fetchFiles(query, parent)`: the query when non-empty; the parent only
      when non-empty and there is no query. */
  function FetchParams(query: string, parent: string): (p: Params)
    ensures p.query.Some? <==> query != ""
    ensures p.parentPath.Some? <==> parent != "" && query == ""
    ensures p.query.Some? ==> p.query.value == query
    ensures p.parentPath.Some? ==> p.parentPath.value == parent
  {
    Params(if query != "" then Some(query) else None,
           if parent != "" && query == "" then Some(parent) else None)
  }

  /** Never both parameters at once, and the service, reading an absent
      parameter as empty, takes the branch the client meant: search for a
      query, listing for a parent, nothing for neither. */
  lemma ParamsPickBranch(query: string, parent: string)
    ensures var p := FetchParams(query, parent);
      && !(p.query.Some? && p.parentPath.Some?)
      && p.query.GetOr("") == query
      && p.parentPath.GetOr("") == (if query == "" then parent else "")
  {
  }
}

=== FILE: catalog.dfy ===
/** The `files` table of the catalog (server/db.js) and the path rules of
    server/services/fileService.js: the drive-letter rule, `path.join` of a
    resolved directory and an entry name, and the row identity `md5(path)`.

    The host platform is Windows (`path.sep` is a backslash), the platform the
    drive-letter rule and the drive probing of the service are written for. */
module Catalog {
  import opened Wrappers

  /** A row's identifier: the MD5 digest of its full path. The digest is kept
      symbolic; the constructor is injective, which is the collision freedom the
      table relies on (`id` is the primary key, `path` is unique). */
  datatype Id = Md5(path: string)

  /** The `type` column. */
  datatype Kind = File | Directory

  /** The text stored in the `type` column, which the listing query sorts on. */
  function TypeText(k: Kind): string {
    match k
    case File => "file"
    case Directory => "directory"
  }

  /** The `last_scanned` column: `0` while a scan has marked the row and not yet
      re-confirmed it, otherwise the `CURRENT_TIMESTAMP` text of the confirming
      statement (a text never equal to the integer 0). */
  datatype Mark = Unconfirmed | ScannedAt(stamp: string)

  /** One row of the `files` table. `size` is an INTEGER, `mtime` and
      `birthtime` are ISO texts or NULL, `tags` and `importance` are the user
      metadata. */
  datatype Entry = Entry(
    id: Id,
    path: string,
    name: string,
    kind: Kind,
    size: int,
    mtime: Option<string>,
    birthtime: Option<string>,
    owner: string,
    permissions: string,
    parentPath: string,
    summary: string,
    tags: string,
    importance: string,
    lastScanned: Mark)

  /** The `files` table, keyed by its primary key. */
  type Table = map<Id, Entry>

  // ---------------------------------------------------------------------------
  // Paths
  // ---------------------------------------------------------------------------

  /** `path.sep` on Windows. */
  const Sep: char := '\\'

  /** Both separators Windows path functions accept. */
  predicate IsSep(c: char) {
    c == '\\' || c == '/'
  }

  predicate IsLetter(c: char) {
    'a' <= c <= 'z' || 'A' <= c <= 'Z'
  }

  /** `p.match(/^[a-zA-Z]:$/)`: a drive letter and a colon, nothing else. */
  predicate IsBareDrive(p: string) {
    |p| == 2 && IsLetter(p[0]) && p[1] == ':'
  }

  /** The drive-letter rule: `X:` (the current directory of drive X) becomes
      `X:\` (its root); every other path is left alone. */
  function WithDriveSep(p: string): string {
    if IsBareDrive(p) then p + [Sep] else p
  }

  /** The root of a drive, `X:\`. */
  predicate IsDriveRoot(p: string) {
    |p| == 3 && IsLetter(p[0]) && p[1] == ':' && p[2] == Sep
  }

  /** The shape of a `path.resolve` result on Windows: only `\` separators
      (the result holds no `/`), and either a drive root or a non-empty path
      that ends in no separator and is not a bare drive. */
  predicate Resolved(d: string) {
    && (forall i :: 0 <= i < |d| ==> d[i] != '/')
    && (IsDriveRoot(d) || (|d| > 0 && !IsSep(d[|d| - 1]) && !IsBareDrive(d)))
  }

  /** An entry name as `readdir` reports it: non-empty, no separator. */
  predicate PlainName(n: string) {
    |n| > 0 && forall i :: 0 <= i < |n| ==> !IsSep(n[i])
  }

  /** The directory part of a joined path: the directory itself when it already
      ends in a separator (a drive root), otherwise the directory and `path.sep`. */
  function DirPrefix(dir: string): string {
    if |dir| > 0 && IsSep(dir[|dir| - 1]) then dir else dir + [Sep]
  }

  /** `path.join(dir, name)` for a resolved directory and a plain name. */
  function JoinPath(dir: string, name: string): string {
    DirPrefix(dir) + name
  }

  /** The text after the last separator of `p`. */
  function AfterLastSep(p: string): string {
    if |p| == 0 || IsSep(p[|p| - 1]) then "" else AfterLastSep(p[..|p| - 1]) + [p[|p| - 1]]
  }

  /** Reads the directory back from its prefix. */
  function DirOfPrefix(q: string): string {
    if IsDriveRoot(q) || |q| == 0 then q else q[..|q| - 1]
  }

  lemma {:induction false} AfterLastSepOfJoin(pre: string, n: string)
    requires |pre| > 0 && IsSep(pre[|pre| - 1])
    requires forall i :: 0 <= i < |n| ==> !IsSep(n[i])
    ensures AfterLastSep(pre + n) == n
    decreases |n|
  {
    if |n| == 0 {
      assert pre + n == pre;
    } else {
      assert (pre + n)[..|pre + n| - 1] == pre + n[..|n| - 1];
      AfterLastSepOfJoin(pre, n[..|n| - 1]);
      assert n == n[..|n| - 1] + [n[|n| - 1]];
    }
  }

  lemma DirOfDirPrefix(d: string)
    requires Resolved(d)
    ensures DirOfPrefix(DirPrefix(d)) == d
  {
    if !IsDriveRoot(d) {
      assert (d + [Sep])[..|d|] == d;
    }
  }

  /** Two joins of resolved directories and plain names are the same path only
      when directory and name are the same: a path determines its parent. */
  lemma JoinPathInjective(d1: string, n1: string, d2: string, n2: string)
    requires Resolved(d1) && Resolved(d2) && PlainName(n1) && PlainName(n2)
    requires JoinPath(d1, n1) == JoinPath(d2, n2)
    ensures d1 == d2 && n1 == n2
  {
    var p := JoinPath(d1, n1);
    AfterLastSepOfJoin(DirPrefix(d1), n1);
    AfterLastSepOfJoin(DirPrefix(d2), n2);
    assert DirPrefix(d1) == p[..|p| - |n1|];
    assert DirPrefix(d2) == p[..|p| - |n2|];
    DirOfDirPrefix(d1);
    DirOfDirPrefix(d2);
  }

  // ---------------------------------------------------------------------------
  // Table invariants
  // ---------------------------------------------------------------------------

  /** A row as the scanner writes it: keyed by its own id, the id is the digest
      of its path, the path is its parent joined with its name, the parent is a
      resolved directory and the name a plain entry name. */
  predicate RowWellFormed(k: Id, e: Entry) {
    && e.id == k
    && k == Md5(e.path)
    && e.path == JoinPath(e.parentPath, e.name)
    && Resolved(e.parentPath)
    && PlainName(e.name)
  }

  predicate WellFormed(t: Table) {
    forall k :: k in t ==> RowWellFormed(k, t[k])
  }

  /** In a well-formed table no two rows share a path (the UNIQUE constraint on
      `path`), and a row is identified by its parent and name. */
  lemma WellFormedKeys(t: Table, k1: Id, k2: Id)
    requires WellFormed(t) && k1 in t && k2 in t
    ensures t[k1].path == t[k2].path ==> k1 == k2
    ensures t[k1].parentPath == t[k2].parentPath && t[k1].name == t[k2].name ==> k1 == k2
  {
  }
}

=== FILE: catalog_properties.dfy ===
/** Properties that tie the scanner and the queries together, as the
    service's own persistence scripts exercise them: metadata set through
    `updateFileMetadata` reads back and survives a rescan, a listing after a
    scan shows exactly the directory's entries, the search is a
    case-insensitive substring test, and the ranking orders importance as
    text. */
module CatalogProperties {
  import opened Wrappers
  import opened Text
  import opened SqlLike
  import opened Catalog
  import opened Scanner
  import opened ScanProperties
  import opened Query

  /** Reading a row back after setting its metadata shows the new tags and
      importance and every other column as before; an unknown id changes
      nothing and reads back as absent. */
  lemma MetadataReadsBack(t: Table, id: Id, tags: string, importance: string)
    ensures var u := UpdateMetadata(t, id, tags, importance);
      && (id in t ==>
            GetFileDetails(u.table, id) == Some(t[id].(tags := tags, importance := importance)))
      && (id !in t ==> u.table == t && GetFileDetails(u.table, id) == None)
  {
    var u := UpdateMetadata(t, id, tags, importance);
    if id in t {
      assert u.table[id] == t[id].(tags := tags, importance := importance);
    }
  }

  /** A row's id is the id the scanner computes for its name under its
      parent. */
  lemma RowIsChild(t: Table, k: Id)
    requires WellFormed(t) && k in t
    ensures k == ChildId(t[k].parentPath, t[k].name)
  {
    assert RowWellFormed(k, t[k]);
  }

  /** Metadata set on a row survives a rescan of its directory that still
      lists the entry: the row is kept with the tags and importance the user
      set. */
  lemma MetadataSurvivesRescan(t: Table, id: Id, tags: string, importance: string,
                               resolve: string -> string, dirPath: string, disk: Disk, now: string)
    requires WellFormed(t) && id in t
    requires Resolved(ScanDir(resolve, dirPath)) && t[id].parentPath == ScanDir(resolve, dirPath)
    requires disk.accessible && disk.listing.Some? && GoodListing(disk.listing.value)
    requires exists i :: 0 <= i < |disk.listing.value| && disk.listing.value[i].name == t[id].name
    ensures var r := Scan(UpdateMetadata(t, id, tags, importance).table, resolve, dirPath, disk, now);
      && r.result.Success?
      && id in r.table
      && r.table[id].tags == tags && r.table[id].importance == importance
  {
    var dir := ScanDir(resolve, dirPath);
    var ls := disk.listing.value;
    var t1 := UpdateMetadata(t, id, tags, importance).table;
    assert WellFormed(t1) by {
      forall k | k in t1
        ensures RowWellFormed(k, t1[k])
      {
        assert RowWellFormed(k, t[k]);
      }
    }
    ScanSucceeds(t1, resolve, dirPath, disk, now);
    var i :| 0 <= i < |ls| && ls[i].name == t[id].name;
    RowIsChild(t, id);
    assert id == ChildId(dir, ls[i].name);
  }

  /** The names a listing reports. */
  function ListedNames(ls: seq<Listed>): set<string> {
    set i | 0 <= i < |ls| :: ls[i].name
  }

  /** After a completed scan of a well-formed table, the rows a listing of the
      same (already resolved) directory selects carry exactly the listed names,
      and no two of them the same name. */
  lemma ListingAfterScan(t: Table, resolve: string -> string, dirPath: string, disk: Disk, now: string)
    requires WellFormed(t) && Resolved(ScanDir(resolve, dirPath))
    requires ScanDir(resolve, dirPath) == WithDriveSep(dirPath)
    requires disk.accessible && disk.listing.Some? && GoodListing(disk.listing.value)
    ensures var rows := Matching(Scan(t, resolve, dirPath, disk, now).table, ParentIs(WithDriveSep(dirPath)));
      && (set e | e in rows :: e.name) == ListedNames(disk.listing.value)
      && (forall e1, e2 :: e1 in rows && e2 in rows && e1.name == e2.name ==> e1 == e2)
  {
    ScanChildrenExact(t, resolve, dirPath, disk, now);
    ScanKeepsWellFormed(t, resolve, dirPath, disk, now);
    ExactChildrenNames(Scan(t, resolve, dirPath, disk, now).table, ScanDir(resolve, dirPath), disk.listing.value);
  }

  /** A well-formed table whose rows under `dir` are exactly the listed
      entries lists their names, each once. */
  lemma ExactChildrenNames(r: Table, dir: string, ls: seq<Listed>)
    requires WellFormed(r)
    requires forall i :: 0 <= i < |ls| ==>
               var k := ChildId(dir, ls[i].name); k in r && r[k].parentPath == dir && r[k].name == ls[i].name
    requires forall k :: k in r && r[k].parentPath == dir ==> k in ListedIds(dir, ls)
    ensures var rows := Matching(r, ParentIs(dir));
      && (set e | e in rows :: e.name) == ListedNames(ls)
      && (forall e1, e2 :: e1 in rows && e2 in rows && e1.name == e2.name ==> e1 == e2)
  {
    var rows := Matching(r, ParentIs(dir));
    forall nm | nm in ListedNames(ls)
      ensures nm in (set e | e in rows :: e.name)
    {
      var i :| 0 <= i < |ls| && nm == ls[i].name;
      assert r[ChildId(dir, ls[i].name)] in rows;
    }
    forall e | e in rows
      ensures e.name in ListedNames(ls)
    {
      var k :| k in r && r[k].parentPath == dir && r[k] == e;
      var i :| 0 <= i < |ls| && k == ChildId(dir, ls[i].name);
    }
    forall e1, e2 | e1 in rows && e2 in rows && e1.name == e2.name
      ensures e1 == e2
    {
      var k1 :| k1 in r && r[k1].parentPath == dir && r[k1] == e1;
      var k2 :| k2 in r && r[k2].parentPath == dir && r[k2] == e2;
      WellFormedKeys(r, k1, k2);
    }
  }

  /** For a query without `%` or `_`, the search keeps a row exactly when the
      query occurs in its name or its tags, ignoring ASCII case. */
  lemma SearchIsSubstringTest(q: string, e: Entry)
    requires Literal(q)
    ensures Keep(NameOrTagsLike(q), e) <==> Contains(Lower(e.name), Lower(q)) || Contains(Lower(e.tags), Lower(q))
  {
    LikeAroundContains(e.name, q);
    LikeAroundContains(e.tags, q);
  }

  /** A tag set through `updateFileMetadata` makes the row findable by any
      wildcard-free piece of the tags, in any ASCII case. */
  lemma TaggedRowIsFound(t: Table, id: Id, tags: string, importance: string, q: string)
    requires id in t && Literal(q) && Contains(Lower(tags), Lower(q))
    ensures UpdateMetadata(t, id, tags, importance).table[id] in
              Matching(UpdateMetadata(t, id, tags, importance).table, NameOrTagsLike(q))
  {
    SearchIsSubstringTest(q, UpdateMetadata(t, id, tags, importance).table[id]);
  }

  /** `importance DESC` compares the importance texts: a search ranks
      `normal` above `medium` above `low` above `high`, not by urgency. */
  lemma ImportanceRanksAsText(a: Entry, b: Entry)
    ensures a.importance == "normal" && b.importance == "medium" ==> Before(BySearchRank, a, b)
    ensures a.importance == "medium" && b.importance == "low" ==> Before(BySearchRank, a, b)
    ensures a.importance == "low" && b.importance == "high" ==> Before(BySearchRank, a, b)
    ensures a.importance == "high" && b.importance == "normal" ==> !Before(BySearchRank, a, b)
  {
    assert StrLt("medium", "normal");
    assert StrLt("low", "medium");
    assert StrLt("high", "low");
    assert StrLt("high", "normal");
    StrLtTotal("high", "normal");
  }

  /** In a sorted listing no file comes before a directory, and rows of the
      same type come in name order. */
  lemma ListingDirectoriesFirst(rows: seq<Entry>)
    requires Sorted(ByTypeThenName, rows)
    ensures forall i, j :: 0 <= i < j < |rows| ==> !(rows[i].kind == File && rows[j].kind == Directory)
    ensures forall i, j :: 0 <= i < j < |rows| && rows[i].kind == rows[j].kind ==> !StrLt(rows[j].name, rows[i].name)
  {
    forall i, j | 0 <= i < j < |rows|
      ensures !(rows[i].kind == File && rows[j].kind == Directory)
    {
      TypeTextOrder(rows[j].kind, rows[i].kind);
    }
  }

  /** In a search ranking importance texts never increase, and rows of equal
      importance and type come latest modification first, rows without a
      timestamp last. */
  lemma SearchNewestFirst(rows: seq<Entry>)
    requires Sorted(BySearchRank, rows)
    ensures forall i, j ::
              (0 <= i < j < |rows| && rows[i].importance == rows[j].importance
               && rows[i].kind == rows[j].kind && rows[i].mtime.None?) ==> rows[j].mtime.None?
    ensures forall i, j ::
              (0 <= i < j < |rows| && rows[i].importance == rows[j].importance
               && rows[i].kind == rows[j].kind && rows[i].mtime.Some? && rows[j].mtime.Some?)
              ==> !StrLt(rows[i].mtime.value, rows[j].mtime.value)
    ensures forall i, j :: 0 <= i < j < |rows| ==> !StrLt(rows[i].importance, rows[j].importance)
  {
    forall i, j | 0 <= i < j < |rows|
      ensures !Before(BySearchRank, rows[j], rows[i])
    {
    }
  }
}

=== FILE: directory_picker.dfy ===
/** The folder browser of client/src/components/DirectoryPicker.jsx: the
    parent folder "up" opens, and how a fetch of a folder's entries updates
    the picker's path, entries and spinner. */
module DirectoryPicker {
  import opened Wrappers
  import opened Text

  /** The character class `[\/\\]` a path is split on. */
  const PathSeps: set<char> := {'/', '\\'}

  /** The path ends with `:\`, the root of a drive. */
  predicate EndsWithDriveRoot(p: string) {
    |p| >= 2 && p[|p| - 2] == ':' && p[|p| - 1] == '\\'
  }

  /** `handleUp`: nothing for an empty path; the drive list (the empty path)
      from the root of a drive; otherwise the path's segments, split on either
      separator, without the last one and joined with `\`. */
  function Up(path: string): (r: Option<string>)
    ensures r.None? <==> path == ""
    ensures EndsWithDriveRoot(path) ==> r == Some("")
    ensures r.Some? ==> NoneIn(r.value, {'/'})
    ensures r.Some? && !EndsWithDriveRoot(path) && |Split(path, PathSeps)| == 1 ==> r == Some("")
    ensures r.Some? && !EndsWithDriveRoot(path) && |Split(path, PathSeps)| >= 2 ==>
              Split(r.value, {'\\'}) == Split(path, PathSeps)[..|Split(path, PathSeps)| - 1]
  {
    if path == "" then None
    else if EndsWithDriveRoot(path) then Some("")
    else
      var parts := Split(path, PathSeps);
      var kept := parts[..|parts| - 1];
      assert forall k :: 0 <= k < |kept| ==> NoneIn(kept[k], {'\\'}) && NoneIn(kept[k], {'/'}) by {
        forall k | 0 <= k < |kept|
          ensures NoneIn(kept[k], {'\\'}) && NoneIn(kept[k], {'/'})
        {
          assert kept[k] == parts[k];
        }
      }
      JoinNoneIn(kept, '\\', {'/'});
      if |kept| >= 1 then
        SplitOfJoin(kept, '\\', {'\\'});
        Some(Join("\\", kept))
      else Some(Join("\\", kept))
  }

  /** Going up from a child folder opens its parent: a path free of `/`
      followed by `\` and a separator-free name goes back to that path. With an
      empty name this is the trailing-separator case: `C:\foo\` goes up to
      `C:\foo`. */
  lemma UpOfChild(p: string, name: string)
    requires NoneIn(p, {'/'}) && NoneIn(name, PathSeps)
    requires name != "" || |p| == 0 || p[|p| - 1] != ':'
    ensures Up(p + "\\" + name) == Some(p)
  {
    var path := p + ['\\'] + name;
    assert path == p + "\\" + name;
    assert !EndsWithDriveRoot(path);
    SplitSnoc(p, '\\', name, PathSeps);
    assert PathSeps == {'\\'} + {'/'};
    SplitIgnoresAbsent(p, {'\\'}, {'/'});
    var parts := Split(path, PathSeps);
    assert parts[..|parts| - 1] == Split(p, {'\\'});
    JoinOfSplit(p, '\\');
  }

  /** Forward slashes are rewritten as backslashes, and a leading separator is
      kept as an empty first segment: `/home/x` goes up to `\home`. */
  lemma UpRewritesSlashes(a: string, b: string)
    requires NoneIn(a, PathSeps) && NoneIn(b, PathSeps)
    ensures Up("/" + a + "/" + b) == Some("\\" + a)
  {
    var path := "/" + a + "/" + b;
    SlashedSplit(path, a, b);
    assert path[|path| - 1] != '\\' by {
      if |b| > 0 {
        assert path[|path| - 1] == b[|b| - 1];
      }
    }
    var parts := Split(path, PathSeps);
    assert parts[..|parts| - 1] == ["", a];
    assert Join("\\", ["", a]) == "" + "\\" + Join("\\", [a]);
    assert "" + "\\" + a == "\\" + a;
  }

  lemma SlashedSplit(path: string, a: string, b: string)
    requires NoneIn(a, PathSeps) && NoneIn(b, PathSeps)
    requires path == "/" + a + "/" + b
    ensures Split(path, PathSeps) == ["", a, b]
  {
    var rest := a + ['/'] + b;
    SplitCons(a, '/', b, PathSeps);
    SplitOfNoneIn(b, PathSeps);
    assert Split(rest, PathSeps) == [a, b];
    assert path == "" + ['/'] + rest;
    SplitCons("", '/', rest, PathSeps);
  }

  /** One entry of the browse answer: a drive or a folder, and the path that
      clicking it opens. */
  datatype Item = Item(name: string, path: string, isDrive: bool)

  /** The picker's state: the folder shown, its entries, the spinner. */
  datatype Picker = Picker(path: string, items: seq<Item>, loading: bool)

  /** On opening, the picker shows the drive list. */
  const Start: Picker := Picker("", [], false)

  /** `fetchItems(browsePath)` once its request has settled: the entries and
      the path are replaced only when the request succeeded (`outcome` holds
      the answer); the spinner is off either way. */
  function FetchItems(s: Picker, browsePath: string, outcome: Option<seq<Item>>): (r: Picker)
    ensures !r.loading
    ensures outcome.Some? ==> r.path == browsePath && r.items == outcome.value
    ensures outcome.None? ==> r.path == s.path && r.items == s.items
  {
    var busy := s.(loading := true);
    match outcome
    case Some(items) => busy.(path := browsePath, items := items, loading := false)
    case None => busy.(loading := false)
  }

  /** The "up" button: nothing happens from the drive list; otherwise the
      parent is fetched, and shown once the request succeeds, while a failed
      request leaves the folder and its entries as they were. */
  function HandleUp(s: Picker, outcome: Option<seq<Item>>): (r: Picker)
    ensures s.path == "" ==> r == s
    ensures s.path != "" ==> !r.loading
    ensures s.path != "" && outcome.Some? ==> r.path == Up(s.path).value && r.items == outcome.value
    ensures outcome.None? ==> r.path == s.path && r.items == s.items
  {
    match Up(s.path)
    case None => s
    case Some(parent) => FetchItems(s, parent, outcome)
  }

  /** A failed request leaves the picker where it was: same folder, same
      entries, spinner off. */
  lemma FailedFetchKeepsState(s: Picker, browsePath: string)
    ensures FetchItems(s, browsePath, None) == s.(loading := false)
  {
  }

  /** Opening a child folder and then going up returns to the folder it was
      opened from, once both requests succeed. */
  lemma NavigateThenUp(s: Picker, p: string, name: string, inner: seq<Item>, outer: seq<Item>)
    requires NoneIn(p, {'/'}) && NoneIn(name, PathSeps)
    requires name != "" || |p| == 0 || p[|p| - 1] != ':'
    ensures var inChild := FetchItems(s, p + "\\" + name, Some(inner));
            HandleUp(inChild, Some(outer)) == Picker(p, outer, false)
  {
    UpOfChild(p, name);
  }
}

=== FILE: file_card.dfy ===
/** The pure helpers of client/src/components/FileCard.jsx: the tag
    canonicaliser run on save, `getDisplayTags`, the extension badge, the icon
    class, and the two-tag summary of the collapsed card. */
module FileCard {
  import opened Wrappers
  import opened Text
  import opened Catalog

  // ---------------------------------------------------------------------------
  // Tags
  // ---------------------------------------------------------------------------

  /** The character class `[,#]` tags are split on. */
  const TagSeps: set<char> := {',', '#'}

  /** The tags a text holds: its pieces between single separators, trimmed,
      empty pieces dropped, in input order, duplicates kept. */
  function TagsOf(s: string): seq<string> {
    Clean(Split(s, TagSeps))
  }

  /** The canonical form saved by `handleSaveMetadata`: split on runs of `,`
      and `#`, trim, drop empty pieces, join with `,`. It holds exactly the
      tags of the input, separated by single commas. */
  function NormalizeTags(s: string): (r: string)
    ensures r == Join(",", TagsOf(s))
  {
    CleanRunsAgree(s, TagSeps);
    Join(",", Clean(SplitRuns(s, TagSeps)))
  }

  /** `getDisplayTags`: nothing for an empty text, otherwise the pieces of the
      text split on runs of `,` and `#`, trimmed, empty ones dropped. */
  function DisplayTags(s: string): (r: seq<string>)
    ensures r == TagsOf(s)
  {
    CleanRunsAgree(s, TagSeps);
    if s == "" then
      CleanSplitEmpty(TagSeps);
      []
    else Clean(SplitRuns(s, TagSeps))
  }

  lemma TagsArePlain(s: string)
    ensures forall p :: p in TagsOf(s) ==> p != "" && Trimmed(p) && NoneIn(p, TagSeps)
    ensures AllClean(TagsOf(s))
    ensures Plain(TagsOf(s), TagSeps)
  {
    CleanPieces(Split(s, TagSeps), TagSeps);
    CleanAndPlain(TagsOf(s), TagSeps);
  }

  /** The canonical form holds no `#`, has no empty comma-separated segment
      (so it neither starts nor ends with a comma), and its segments are the
      tags of the input. */
  lemma NormalizedShape(s: string)
    ensures var r := NormalizeTags(s);
      && NoneIn(r, {'#'})
      && (r == "" <==> TagsOf(s) == [])
      && (r != "" ==> Split(r, {','}) == TagsOf(s))
      && (r != "" ==> r[0] != ',' && r[|r| - 1] != ',')
  {
    NormalizedHasNoHash(s);
    NormalizedSegments(s);
    NormalizedEnds(s);
  }

  lemma NormalizedHasNoHash(s: string)
    ensures NoneIn(NormalizeTags(s), {'#'})
  {
    var tags := TagsOf(s);
    TagsArePlain(s);
    assert forall k :: 0 <= k < |tags| ==> NoneIn(tags[k], {'#'}) by {
      forall k | 0 <= k < |tags|
        ensures NoneIn(tags[k], {'#'})
      {
        assert tags[k] in tags;
      }
    }
    JoinNoneIn(tags, ',', {'#'});
  }

  lemma NormalizedSegments(s: string)
    ensures NormalizeTags(s) == "" <==> TagsOf(s) == []
    ensures NormalizeTags(s) != "" ==> Split(NormalizeTags(s), {','}) == TagsOf(s)
  {
    var tags := TagsOf(s);
    TagsArePlain(s);
    if |tags| > 0 {
      assert forall k :: 0 <= k < |tags| ==> NoneIn(tags[k], {','}) by {
        forall k | 0 <= k < |tags|
          ensures NoneIn(tags[k], {','})
        {
          assert tags[k] in tags;
        }
      }
      JoinStartsWithFirst(tags, ",");
      assert tags[0] in tags;
      SplitOfJoin(tags, ',', {','});
    }
  }

  lemma NormalizedEnds(s: string)
    ensures var r := NormalizeTags(s); r != "" ==> r[0] != ',' && r[|r| - 1] != ','
  {
    TagsArePlain(s);
    EndsOfJoin(NormalizeTags(s), TagsOf(s));
  }

  /** A comma join of plain tags neither starts nor ends with a comma. */
  lemma EndsOfJoin(r: string, tags: seq<string>)
    requires r == Join(",", tags) && Plain(tags, TagSeps)
    ensures r != "" ==> r[0] != ',' && r[|r| - 1] != ','
  {
    JoinedPlainEnds(tags, ',', TagSeps);
  }

  /** The saved text holds the same tags as the text it was saved from. */
  lemma TagsOfNormalized(s: string)
    ensures TagsOf(NormalizeTags(s)) == TagsOf(s)
  {
    var tags := TagsOf(s);
    TagsArePlain(s);
    if |tags| == 0 {
      CleanSplitEmpty(TagSeps);
    } else {
      SplitOfJoin(tags, ',', TagSeps);
      CleanOfClean(tags);
    }
  }

  /** Saving twice stores what saving once stored. */
  lemma NormalizeIdempotent(s: string)
    ensures NormalizeTags(NormalizeTags(s)) == NormalizeTags(s)
  {
    TagsOfNormalized(s);
  }

  /** The display tags of a saved text join back into that text with commas,
      and a text shows the same tags before and after saving. */
  lemma DisplayOfNormalized(s: string)
    ensures Join(",", DisplayTags(NormalizeTags(s))) == NormalizeTags(s)
    ensures DisplayTags(NormalizeTags(s)) == DisplayTags(s)
  {
    TagsOfNormalized(s);
  }

  /** A text with no separator that is already trimmed and non-empty is a
      single tag and is saved as it is: spaces do not separate tags. */
  lemma SingleTagKept(x: string)
    requires x != "" && Trimmed(x) && NoneIn(x, TagSeps)
    ensures TagsOf(x) == [x]
    ensures NormalizeTags(x) == x
  {
    SplitOfNoneIn(x, TagSeps);
    CleanOfClean([x]);
  }

  /** A comma after a separator-free first piece splits the tags there. */
  lemma TagsOfComma(a: string, b: string)
    requires NoneIn(a, TagSeps)
    ensures TagsOf(a + "," + b) == TagsOf(a) + TagsOf(b)
  {
    assert a + "," + b == a + [','] + b;
    CleanSplitCons(a, ',', b, TagSeps);
  }

  lemma NormalizedOfTags(s: string, tags: seq<string>)
    requires TagsOf(s) == tags
    ensures NormalizeTags(s) == Join(",", tags)
  {
  }

  /** Saving does not remove repeated tags: `x,x` stays `x,x`. */
  lemma DuplicatesKept(x: string)
    requires x != "" && Trimmed(x) && NoneIn(x, TagSeps)
    ensures NormalizeTags(x + "," + x) == x + "," + x
  {
    var s := x + "," + x;
    SingleTagKept(x);
    TagsOfComma(x, x);
    JoinPair(",", x, x);
    assert [x] + [x] == [x, x];
    NormalizedOfTags(s, [x, x]);
  }

  // ---------------------------------------------------------------------------
  // Collapsed-card summary
  // ---------------------------------------------------------------------------

  /** What the collapsed card shows of the tags: at most two of them, and
      whether the ellipsis follows. */
  datatype TagSummary = TagSummary(shown: seq<string>, ellipsis: bool)

  /** The summary of a tag list: its first two tags, and the ellipsis exactly
      when some tag is not shown. */
  function Summary(all: seq<string>): (r: TagSummary)
    ensures |r.shown| <= 2 && |r.shown| <= |all|
    ensures r.shown + all[|r.shown|..] == all
    ensures r.ellipsis <==> |r.shown| < |all|
    ensures |all| >= 2 ==> |r.shown| == 2
  {
    var shown := if |all| <= 2 then all else all[..2];
    TagSummary(shown, |all| > 2)
  }

  /** The collapsed card's tag box: absent for an empty tag text, otherwise
      the summary of its display tags. */
  function CollapsedTags(tags: string): (r: Option<TagSummary>)
    ensures r.None? <==> tags == ""
    ensures r.Some? ==> r.value == Summary(DisplayTags(tags))
  {
    if tags == "" then None else Some(Summary(DisplayTags(tags)))
  }

  // ---------------------------------------------------------------------------
  // Extension badge and icon
  // ---------------------------------------------------------------------------

  /** `getExtension`: the upper-cased text after the last `.`, or `DIR` for a
      name without a dot. */
  function Extension(name: string): (r: string)
    ensures '.' !in name ==> r == "DIR"
    ensures '.' in name ==>
              exists i :: 0 <= i < |name| && name[i] == '.' && NoneIn(name[i + 1..], {'.'})
                          && r == Upper(name[i + 1..])
  {
    if '.' in name then Upper(AfterLast(name, '.')) else "DIR"
  }

  /** The badge: `DIR` for a directory, otherwise the name's extension. */
  function Badge(kind: Kind, name: string): string {
    if kind == Directory then "DIR" else Extension(name)
  }

  /** The icon classes of `getIcon`. */
  datatype Icon = Folder | Code | Image | Video | Document

  const CodeExts: set<string> := {"js", "jsx", "ts", "tsx", "json", "html", "css"}
  const ImageExts: set<string> := {"png", "jpg", "jpeg", "svg", "gif"}
  const VideoExts: set<string> := {"mp4", "mkv", "avi"}

  /** `getIcon`: a folder for a directory, otherwise the class whose list holds
      the lower-cased badge, a plain document when none does. */
  function IconFor(kind: Kind, name: string): (r: Icon)
    ensures r == Folder <==> kind == Directory
    ensures kind == File ==>
              && (r == Code <==> Lower(Extension(name)) in CodeExts)
              && (r == Image <==> Lower(Extension(name)) in ImageExts)
              && (r == Video <==> Lower(Extension(name)) in VideoExts)
  {
    IconListsDisjoint();
    if kind == Directory then Folder
    else
      var e := Lower(Badge(kind, name));
      if e in CodeExts then Code
      else if e in ImageExts then Image
      else if e in VideoExts then Video
      else Document
  }

  /** The extension lists share no entry, so the order of the cases does not
      matter. */
  lemma IconListsDisjoint()
    ensures CodeExts !! ImageExts && CodeExts !! VideoExts && ImageExts !! VideoExts
  {
  }

  lemma DotOfCase(m: CaseMap, name: string)
    ensures '.' in Case(m, name) <==> '.' in name
  {
    if '.' in name {
      var i :| 0 <= i < |name| && name[i] == '.';
      assert Case(m, name)[i] == '.';
    }
  }

  /** The badge of a file does not depend on the case of its name. */
  lemma ExtensionIgnoresCase(m: CaseMap, name: string)
    ensures Extension(Case(m, name)) == Extension(name)
  {
    DotOfCase(m, name);
    if '.' in name {
      AfterLastOfCase(m, name, '.');
      CaseOfCase(ToUpper, m, AfterLast(name, '.'));
    }
  }

  /** Neither does its icon. */
  lemma IconIgnoresCase(m: CaseMap, kind: Kind, name: string)
    ensures IconFor(kind, Case(m, name)) == IconFor(kind, name)
  {
    ExtensionIgnoresCase(m, name);
  }

  /** A file without a dot gets the badge `DIR` and the document icon. */
  lemma NoDotIsDocument(name: string)
    requires '.' !in name
    ensures Badge(File, name) == "DIR" && IconFor(File, name) == Document
  {
    assert Lower("DIR") == "dir";
  }

  /** The badge is the upper-cased text after the last dot, even when that
      text is empty (`notes.` shows an empty badge). */
  lemma ExtensionAfterLastDot(a: string, b: string)
    requires NoneIn(b, {'.'})
    ensures Extension(a + "." + b) == Upper(b)
  {
    var name := a + ['.'] + b;
    assert name == a + "." + b;
    assert name[|a|] == '.';
    AfterLastSnoc(a, '.', b);
  }
}

=== FILE: preview_modal.dfy ===
/** The preview dialog of client/src/components/PreviewModal.jsx: which kind
    of preview a file name gets, and how the dialog's content, spinner and
    error move while the content of a text, Word or Excel file is fetched. */
module PreviewModal {
  import opened Wrappers
  import opened Text

  /** The preview kinds the classification chain assigns. */
  datatype PreviewKind = Image | Video | Audio | Pdf | Plain | Docx | Xlsx | Unsupported

  /** The lower-cased text after the last `.`, the whole name lower-cased when
      it has no `.`. */
  function ExtOf(name: string): (r: string)
    ensures '.' !in name ==> r == Lower(name)
    ensures '.' in name ==>
              exists i :: 0 <= i < |name| && name[i] == '.' && NoneIn(name[i + 1..], {'.'})
                          && r == Lower(name[i + 1..])
  {
    Lower(AfterLast(name, '.'))
  }

  const ImageExts: set<string> := {"jpg", "jpeg", "png", "gif", "webp", "svg", "bmp"}
  const VideoExts: set<string> := {"mp4", "webm", "ogg"}
  const AudioExts: set<string> := {"mp3", "wav", "m4a"}
  const PdfExts: set<string> := {"pdf"}
  const PlainExts: set<string> := {"txt", "md", "json", "js", "css", "html", "xml", "log"}
  const DocxExts: set<string> := {"docx"}
  const XlsxExts: set<string> := {"xlsx", "xls", "csv"}

  /** The extensions each kind is chosen for; `Unsupported` has none of its
      own: it takes every extension no list holds. */
  function ExtsOf(k: PreviewKind): set<string> {
    match k
    case Image => ImageExts
    case Video => VideoExts
    case Audio => AudioExts
    case Pdf => PdfExts
    case Plain => PlainExts
    case Docx => DocxExts
    case Xlsx => XlsxExts
    case Unsupported => {}
  }

  /** The lists share no extension. */
  lemma ListsDisjoint(a: PreviewKind, b: PreviewKind)
    requires a != b
    ensures ExtsOf(a) !! ExtsOf(b)
  {
  }

  /** The classification chain of the dialog's effect: the first list that
      holds the extension decides; no list, no preview. Since the lists are
      disjoint, a name gets the one kind whose list holds its extension. */
  function Classify(name: string): (r: PreviewKind)
    ensures r != Unsupported ==> ExtOf(name) in ExtsOf(r)
    ensures r == Unsupported <==> forall k: PreviewKind :: ExtOf(name) !in ExtsOf(k)
  {
    KindOfExt(ExtOf(name))
  }

  function KindOfExt(e: string): (r: PreviewKind)
    ensures r != Unsupported ==> e in ExtsOf(r)
    ensures r == Unsupported <==> forall k: PreviewKind :: e !in ExtsOf(k)
  {
    if e in ImageExts then Image
    else if e in VideoExts then Video
    else if e in AudioExts then Audio
    else if e in PdfExts then Pdf
    else if e in PlainExts then Plain
    else if e in DocxExts then Docx
    else if e in XlsxExts then Xlsx
    else Unsupported
  }

  /** The kind whose list holds the extension is the kind chosen: the order of
      the chain does not matter. */
  lemma ClassifyByList(name: string, k: PreviewKind)
    requires ExtOf(name) in ExtsOf(k)
    ensures Classify(name) == k
  {
    if Classify(name) != k {
      ListsDisjoint(Classify(name), k);
    }
  }

  /** The kind does not depend on the case of the name. */
  lemma ClassifyIgnoresCase(m: CaseMap, name: string)
    ensures ExtOf(Case(m, name)) == ExtOf(name)
    ensures Classify(Case(m, name)) == Classify(name)
  {
    assert NoLetters({'.'});
    AfterLastOfCase(m, name, '.');
    CaseOfCase(ToLower, m, AfterLast(name, '.'));
  }

  /** Only these kinds fetch content before they can be shown. */
  predicate Fetches(k: PreviewKind) {
    k == Plain || k == Docx || k == Xlsx
  }

  /** The dialog's state; `kind` is `None` while it is still `unknown`. */
  datatype Preview = Preview(content: Option<string>, loading: bool, error: Option<string>,
                             kind: Option<PreviewKind>)

  /** When the dialog mounts: no content, spinner on, no error, kind unknown. */
  const Mounted: Preview := Preview(None, true, None, None)

  /** The effect for a file: the kind is set; the spinner stays on exactly for
      the kinds that fetch content, and content and error are untouched. */
  function Open(s: Preview, name: string): (r: Preview)
    ensures r.kind == Some(Classify(name))
    ensures r.loading <==> s.loading && Fetches(Classify(name))
    ensures r.content == s.content && r.error == s.error
  {
    var k := Classify(name);
    if Fetches(k) then s.(kind := Some(k)) else s.(kind := Some(k), loading := false)
  }

  /** The message a failed fetch shows for each fetching kind. */
  function FailureMessage(k: PreviewKind): (m: string)
    requires Fetches(k)
    ensures m != ""
  {
    match k
    case Plain => "Metin dosyası okunamadı."
    case Docx => "Word belgesi okunamadı."
    case Xlsx => "Excel dosyası okunamadı."
  }

  /** A fetch helper settling: on success (`outcome` holds the HTML or text)
      the content is set; on failure the kind's message is the error; the
      spinner is off either way, and the kind stays. */
  function Settle(s: Preview, outcome: Option<string>): (r: Preview)
    requires s.kind.Some? && Fetches(s.kind.value)
    ensures !r.loading && r.kind == s.kind
    ensures outcome.Some? ==> r.content == outcome && r.error == s.error
    ensures outcome.None? ==> r.content == s.content && r.error == Some(FailureMessage(s.kind.value))
  {
    match outcome
    case Some(c) => s.(content := Some(c), loading := false)
    case None => s.(error := Some(FailureMessage(s.kind.value)), loading := false)
  }

  /** Opening a file in a freshly mounted dialog, and settling its fetch when
      it has one, always ends with the spinner off; exactly one of content,
      error or a kind shown without content is the result. */
  lemma PreviewSettles(name: string, outcome: Option<string>)
    ensures var s := Open(Mounted, name);
      && (!Fetches(Classify(name)) ==> !s.loading && s.content.None? && s.error.None?)
      && (Fetches(Classify(name)) ==>
            var r := Settle(s, outcome);
            && !r.loading
            && (r.content.Some? <==> outcome.Some?)
            && (r.error.Some? <==> outcome.None?))
  {
  }

  /** The extension after the last dot decides, whatever its case:
      `photo.JPG` is an image. */
  lemma DottedNameClassified(stem: string)
    ensures Classify(stem + ".JPG") == Image
  {
    assert stem + ".JPG" == stem + ['.'] + "JPG";
    AfterLastSnoc(stem, '.', "JPG");
    assert Lower("JPG") == "jpg";
    assert "jpg" in ExtsOf(Image);
    ClassifyByList(stem + ".JPG", Image);
  }

  /** A name without a dot is classified by the whole name: a file named
      `pdf` gets the PDF viewer. */
  lemma UndottedNameClassified()
    ensures Classify("pdf") == Pdf
  {
    assert '.' !in "pdf";
    assert Lower("pdf") == "pdf";
    assert "pdf" in ExtsOf(Pdf);
    ClassifyByList("pdf", Pdf);
  }
}

=== FILE: query.dfy ===
/** The read and update side of server/services/fileService.js: `getFiles`
    (global search or one directory's listing), `getFileDetails` and
    `updateFileMetadata`, over the `files` table. */
module Query {
  import opened Wrappers
  import opened Text
  import opened SqlLike
  import opened Catalog

  /** The `LIMIT` of the search statement. */
  const SearchLimit: nat := 1000

  /** The `WHERE` clause of each statement. */
  datatype Filter = NameOrTagsLike(query: string) | ParentIs(dir: string)

  predicate Keep(f: Filter, e: Entry) {
    match f
    case NameOrTagsLike(q) => Like(e.name, Around(q)) || Like(e.tags, Around(q))
    case ParentIs(dir) => e.parentPath == dir
  }

  /** The rows the `WHERE` clause selects, as a set of rows. In a well-formed
      table every row holds its own id, so no two rows collapse into one; in
      any other table two rows equal in every column would count once. */
  function Matching(t: Table, f: Filter): set<Entry> {
    set k | k in t && Keep(f, t[k]) :: t[k]
  }

  // ---------------------------------------------------------------------------
  // ORDER BY
  // ---------------------------------------------------------------------------

  /** The `ORDER BY` clause of each statement: `type ASC, name ASC` for a
      listing; `importance DESC, type ASC, mtime DESC` for a search. */
  datatype Order = ByTypeThenName | BySearchRank

  /** `mtime DESC`: a later timestamp first; NULL sorts below every text in
      SQLite, so it comes last. */
  predicate LaterMtime(a: Entry, b: Entry) {
    a.mtime.Some? && (b.mtime.None? || StrLt(b.mtime.value, a.mtime.value))
  }

  /** `a` sorts strictly before `b`. Text columns compare with the BINARY
      collation. */
  predicate Before(o: Order, a: Entry, b: Entry) {
    match o
    case ByTypeThenName =>
      || StrLt(TypeText(a.kind), TypeText(b.kind))
      || (a.kind == b.kind && StrLt(a.name, b.name))
    case BySearchRank =>
      || StrLt(b.importance, a.importance)
      || (a.importance == b.importance
          && (|| StrLt(TypeText(a.kind), TypeText(b.kind))
              || (a.kind == b.kind && LaterMtime(a, b))))
  }

  lemma TypeTextOrder(a: Kind, b: Kind)
    ensures StrLt(TypeText(a), TypeText(b)) <==> a == Directory && b == File
  {
    assert StrLt(TypeText(Directory), TypeText(File));
    StrLtIrreflexive(TypeText(a));
    StrLtTotal(TypeText(Directory), TypeText(File));
  }

  lemma BeforeIrreflexive(o: Order, a: Entry)
    ensures !Before(o, a, a)
  {
    StrLtIrreflexive(a.importance);
    StrLtIrreflexive(a.name);
    TypeTextOrder(a.kind, a.kind);
    if a.mtime.Some? {
      StrLtIrreflexive(a.mtime.value);
    }
  }

  lemma LaterMtimeTransitive(a: Entry, b: Entry, c: Entry)
    requires LaterMtime(a, b) && LaterMtime(b, c)
    ensures LaterMtime(a, c)
  {
    if c.mtime.Some? {
      StrLtTransitive(c.mtime.value, b.mtime.value, a.mtime.value);
    }
  }

  lemma BeforeTransitive(o: Order, a: Entry, b: Entry, c: Entry)
    requires Before(o, a, b) && Before(o, b, c)
    ensures Before(o, a, c)
  {
    TypeTextOrder(a.kind, b.kind);
    TypeTextOrder(b.kind, c.kind);
    TypeTextOrder(a.kind, c.kind);
    match o
    case ByTypeThenName =>
      if a.kind == b.kind && b.kind == c.kind {
        StrLtTransitive(a.name, b.name, c.name);
      }
    case BySearchRank =>
      if StrLt(b.importance, a.importance) && StrLt(c.importance, b.importance) {
        StrLtTransitive(c.importance, b.importance, a.importance);
      } else if a.importance == b.importance && b.importance == c.importance
                && a.kind == b.kind && b.kind == c.kind {
        LaterMtimeTransitive(a, b, c);
      }
  }

  /** No later row sorts strictly before an earlier one. */
  predicate Sorted(o: Order, xs: seq<Entry>) {
    forall i, j :: 0 <= i < j < |xs| ==> !Before(o, xs[j], xs[i])
  }

  /** Places `x` into a sorted sequence, after every row it does not sort
      before. */
  function Insert(o: Order, x: Entry, xs: seq<Entry>): (r: seq<Entry>)
    requires Sorted(o, xs)
    ensures Sorted(o, r)
    ensures multiset(r) == multiset(xs) + multiset{x}
  {
    if |xs| == 0 then [x]
    else if Before(o, x, xs[0]) then
      InsertFront(o, x, xs);
      [x] + xs
    else
      var rest := Insert(o, x, xs[1..]);
      assert xs == [xs[0]] + xs[1..];
      InsertBehind(o, x, xs, rest);
      [xs[0]] + rest
  }

  lemma InsertBehind(o: Order, x: Entry, xs: seq<Entry>, rest: seq<Entry>)
    requires Sorted(o, xs) && |xs| > 0 && !Before(o, x, xs[0])
    requires Sorted(o, rest) && multiset(rest) == multiset(xs[1..]) + multiset{x}
    ensures Sorted(o, [xs[0]] + rest)
  {
    forall j | 0 <= j < |rest|
      ensures !Before(o, rest[j], xs[0])
    {
      assert rest[j] in multiset(rest);
      if rest[j] != x {
        assert rest[j] in xs[1..];
      }
    }
  }

  lemma InsertFront(o: Order, x: Entry, xs: seq<Entry>)
    requires Sorted(o, xs) && |xs| > 0 && Before(o, x, xs[0])
    ensures Sorted(o, [x] + xs)
  {
    forall j | 0 <= j < |xs|
      ensures !Before(o, xs[j], x)
    {
      if Before(o, xs[j], x) {
        BeforeTransitive(o, xs[j], x, xs[0]);
        if j == 0 {
          BeforeIrreflexive(o, xs[0]);
        }
        assert false;
      }
    }
  }

  /** Runs one statement without its limit: every row the `WHERE` clause keeps,
      each once, in `ORDER BY` order (rows the order ties come in some order). */
  method Select(t: Table, f: Filter, o: Order) returns (rows: seq<Entry>)
    ensures Sorted(o, rows)
    ensures multiset(rows) == multiset(Matching(t, f))
  {
    var rest := Matching(t, f);
    rows := [];
    while rest != {}
      invariant rest <= Matching(t, f)
      invariant Sorted(o, rows)
      invariant multiset(rows) + multiset(rest) == multiset(Matching(t, f))
      decreases |rest|
    {
      var e :| e in rest;
      assert multiset(rest) == multiset(rest - {e}) + multiset{e};
      rows := Insert(o, e, rows);
      rest := rest - {e};
    }
  }

  // ---------------------------------------------------------------------------
  // The exported functions
  // ---------------------------------------------------------------------------

  function Min(a: nat, b: nat): nat {
    if a <= b then a else b
  }

  /** `getFiles({ query, parentPath })`; an absent parameter is the empty text.

      A non-empty query searches names and tags of the whole catalog and keeps
      the first `SearchLimit` rows of the ranking: fewer rows only when fewer
      match, no row twice, and no matching row left out that ranks strictly
      above one returned. Otherwise a non-empty parent lists exactly the rows
      whose parent is that directory (after the drive-letter rule, and without
      `path.resolve`), directories first, then by name. Otherwise the answer is
      empty. */
  method GetFiles(t: Table, query: string, parentPath: string) returns (rows: seq<Entry>)
    ensures query != "" ==>
              && Sorted(BySearchRank, rows)
              && |rows| == Min(|Matching(t, NameOrTagsLike(query))|, SearchLimit)
              && multiset(rows) <= multiset(Matching(t, NameOrTagsLike(query)))
              && (forall e, i :: e in Matching(t, NameOrTagsLike(query)) && e !in rows && 0 <= i < |rows| ==>
                    !Before(BySearchRank, e, rows[i]))
    ensures query == "" && parentPath != "" ==>
              && Sorted(ByTypeThenName, rows)
              && multiset(rows) == multiset(Matching(t, ParentIs(WithDriveSep(parentPath))))
    ensures query == "" && parentPath == "" ==> rows == []
  {
    if query != "" {
      var all := Select(t, NameOrTagsLike(query), BySearchRank);
      ghost var matching := Matching(t, NameOrTagsLike(query));
      assert |all| == |matching| by {
        assert |multiset(all)| == |multiset(matching)|;
      }
      var n := Min(|all|, SearchLimit);
      rows := all[..n];
      assert all == rows + all[n..];
      assert multiset(all) == multiset(rows) + multiset(all[n..]);
      forall e, i | e in matching && e !in rows && 0 <= i < |rows|
        ensures !Before(BySearchRank, e, rows[i])
      {
        assert e in multiset(all);
        var j :| 0 <= j < |all| && all[j] == e;
        assert all[i] == rows[i];
      }
    } else if parentPath != "" {
      rows := Select(t, ParentIs(WithDriveSep(parentPath)), ByTypeThenName);
    } else {
      rows := [];
    }
  }

  /** `getFileDetails(id)`: the row with that id, or `undefined`. */
  function GetFileDetails(t: Table, id: Id): (r: Option<Entry>)
    ensures r.Some? <==> id in t
    ensures r.Some? ==> r.value == t[id]
  {
    if id in t then Some(t[id]) else None
  }

  /** The table after `updateFileMetadata`, and its boolean answer. */
  datatype Updated = Updated(table: Table, changed: bool)

  /** `updateFileMetadata(id, { tags, importance })`: sets both columns of the
      row with that id, as given (no check of the importance value); answers
      whether a row changed. */
  function UpdateMetadata(t: Table, id: Id, tags: string, importance: string): (r: Updated)
    ensures r.changed <==> id in t
    ensures r.table.Keys == t.Keys
    ensures forall k :: k in t && k != id ==> r.table[k] == t[k]
    ensures id in t ==>
              && r.table[id].tags == tags && r.table[id].importance == importance
              && r.table[id].(tags := t[id].tags, importance := t[id].importance) == t[id]
  {
    if id in t then Updated(t[id := t[id].(tags := tags, importance := importance)], true)
    else Updated(t, false)
  }
}

=== FILE: scan_properties.dfy ===
/** Properties of `scanDirectory` over tables the scanner itself builds: the
    scan never trips the UNIQUE constraint on `path`, keeps the table
    well-formed, leaves exactly the listed entries under the directory, and a
    second scan of an unchanged directory changes nothing. */
module ScanProperties {
  import opened Wrappers
  import opened Catalog
  import opened Scanner

  /** What `readdir` of a real directory reports: plain names, each once. */
  predicate GoodListing(ls: seq<Listed>) {
    && (forall i :: 0 <= i < |ls| ==> PlainName(ls[i].name))
    && (forall i, j :: 0 <= i < j < |ls| ==> ls[i].name != ls[j].name)
  }

  /** The row an entry is confirmed as: its existing row, or a new row, with
      this scan's stat and mark. */
  function Confirm(m: Table, dir: string, l: Listed, now: string): Entry {
    var id := ChildId(dir, l.name);
    Refresh(if id in m then m[id] else NewRow(dir, l, now), l, now)
  }

  lemma NewRowWellFormed(dir: string, l: Listed, now: string)
    requires Resolved(dir) && PlainName(l.name)
    ensures RowWellFormed(ChildId(dir, l.name), NewRow(dir, l, now))
  {
  }

  lemma MarkKeepsWellFormed(t: Table, dir: string)
    requires WellFormed(t)
    ensures WellFormed(MarkChildren(t, dir))
  {
    var m := MarkChildren(t, dir);
    forall k | k in m
      ensures RowWellFormed(k, m[k])
    {
      assert RowWellFormed(k, t[k]);
    }
  }

  /** On a well-formed table one upsert of a plain name under a resolved
      directory succeeds, confirms the entry, and keeps the table well-formed. */
  lemma UpsertOnWellFormed(m: Table, dir: string, l: Listed, now: string)
    requires WellFormed(m) && Resolved(dir) && PlainName(l.name)
    ensures Upsert(m, dir, l, now) == Success(m[ChildId(dir, l.name) := Confirm(m, dir, l, now)])
    ensures WellFormed(m[ChildId(dir, l.name) := Confirm(m, dir, l, now)])
  {
    var id := ChildId(dir, l.name);
    NewRowWellFormed(dir, l, now);
    var m1 := m[id := Confirm(m, dir, l, now)];
    forall k | k in m1
      ensures RowWellFormed(k, m1[k])
    {
      if k != id {
        assert RowWellFormed(k, m[k]);
      } else if id in m {
        assert RowWellFormed(k, m[k]);
      }
    }
  }

  lemma ListedIdsCons(dir: string, ls: seq<Listed>)
    requires |ls| > 0
    ensures ListedIds(dir, ls) == {ChildId(dir, ls[0].name)} + ListedIds(dir, ls[1..])
  {
    var rest := ls[1..];
    forall k | k in ListedIds(dir, ls)
      ensures k in {ChildId(dir, ls[0].name)} + ListedIds(dir, rest)
    {
      var i :| 0 <= i < |ls| && k == ChildId(dir, ls[i].name);
      if i > 0 {
        assert ls[i] == rest[i - 1];
      }
    }
    forall k | k in ListedIds(dir, rest)
      ensures k in ListedIds(dir, ls)
    {
      var j :| 0 <= j < |rest| && k == ChildId(dir, rest[j].name);
      assert rest[j] == ls[j + 1];
    }
  }

  /** In a good listing the first entry's id is not listed again, and the rest
      is a good listing. */
  lemma GoodListingCons(dir: string, ls: seq<Listed>)
    requires |ls| > 0 && GoodListing(ls)
    ensures GoodListing(ls[1..])
    ensures ChildId(dir, ls[0].name) !in ListedIds(dir, ls[1..])
  {
    var rest := ls[1..];
    assert forall i :: 0 <= i < |rest| ==> rest[i] == ls[i + 1];
    if ChildId(dir, ls[0].name) in ListedIds(dir, rest) {
      var j :| 0 <= j < |rest| && ChildId(dir, ls[0].name) == ChildId(dir, rest[j].name);
      ChildIdInjective(dir, ls[0].name, rest[j].name);
      assert false;
    }
  }

  /** Confirming a later entry does not see the first entry's upsert. */
  lemma ConfirmLater(m: Table, dir: string, ls: seq<Listed>, now: string, i: int)
    requires GoodListing(ls) && 0 < i < |ls|
    ensures Confirm(m[ChildId(dir, ls[0].name) := Confirm(m, dir, ls[0], now)], dir, ls[i], now)
            == Confirm(m, dir, ls[i], now)
  {
    if ChildId(dir, ls[i].name) == ChildId(dir, ls[0].name) {
      ChildIdInjective(dir, ls[0].name, ls[i].name);
      assert false;
    }
  }

  /** What the upsert loop over `ls` leaves of `m`, on a well-formed table. */
  predicate UpsertedFrom(m: Table, u: Upserted, dir: string, ls: seq<Listed>, now: string) {
    && u.failure.None?
    && WellFormed(u.table)
    && u.table.Keys == m.Keys + ListedIds(dir, ls)
    && (forall i :: 0 <= i < |ls| ==> u.table[ChildId(dir, ls[i].name)] == Confirm(m, dir, ls[i], now))
    && (forall k :: k in m && k !in ListedIds(dir, ls) ==> u.table[k] == m[k])
  }

  /** The inductive step: the first upsert, then the loop over the rest. */
  lemma UpsertedFromCons(m: Table, u: Upserted, dir: string, ls: seq<Listed>, now: string)
    requires |ls| > 0 && GoodListing(ls)
    requires UpsertedFrom(m[ChildId(dir, ls[0].name) := Confirm(m, dir, ls[0], now)], u, dir, ls[1..], now)
    ensures UpsertedFrom(m, u, dir, ls, now)
  {
    GoodListingCons(dir, ls);
    ListedIdsCons(dir, ls);
    ConsConfirms(m, u, dir, ls, now);
    ConsKeys(m, ChildId(dir, ls[0].name), Confirm(m, dir, ls[0], now), u.table,
             ListedIds(dir, ls), ListedIds(dir, ls[1..]));
  }

  lemma ConsKeys(m: Table, id0: Id, e: Entry, u: Table, ids: set<Id>, rest: set<Id>)
    requires ids == {id0} + rest
    requires u.Keys == m[id0 := e].Keys + rest
    requires forall k :: k in m[id0 := e] && k !in rest ==> u[k] == m[id0 := e][k]
    ensures u.Keys == m.Keys + ids
    ensures forall k :: k in m && k !in ids ==> u[k] == m[k]
  {
  }

  lemma ConsConfirms(m: Table, u: Upserted, dir: string, ls: seq<Listed>, now: string)
    requires |ls| > 0 && GoodListing(ls)
    requires ChildId(dir, ls[0].name) !in ListedIds(dir, ls[1..])
    requires UpsertedFrom(m[ChildId(dir, ls[0].name) := Confirm(m, dir, ls[0], now)], u, dir, ls[1..], now)
    ensures forall i :: 0 <= i < |ls| ==> u.table[ChildId(dir, ls[i].name)] == Confirm(m, dir, ls[i], now)
  {
    var rest := ls[1..];
    forall i | 0 <= i < |ls|
      ensures u.table[ChildId(dir, ls[i].name)] == Confirm(m, dir, ls[i], now)
    {
      if i > 0 {
        assert ls[i] == rest[i - 1];
        ConfirmLater(m, dir, ls, now, i);
      }
    }
  }

  /** The upsert loop over a good listing on a well-formed table completes;
      each listed entry ends up confirmed from its row before the loop, and
      every other row is as it was. */
  lemma {:induction false} UpsertAllOnWellFormed(m: Table, dir: string, ls: seq<Listed>, now: string)
    requires WellFormed(m) && Resolved(dir) && GoodListing(ls)
    ensures UpsertedFrom(m, UpsertAll(m, dir, ls, now), dir, ls, now)
    decreases |ls|
  {
    if |ls| > 0 {
      var m1 := m[ChildId(dir, ls[0].name) := Confirm(m, dir, ls[0], now)];
      UpsertOnWellFormed(m, dir, ls[0], now);
      GoodListingCons(dir, ls);
      UpsertAllOnWellFormed(m1, dir, ls[1..], now);
      UpsertedFromCons(m, UpsertAll(m1, dir, ls[1..], now), dir, ls, now);
    }
  }

  /** On a well-formed table, a scan of a resolved directory with a good
      listing never fails on the UNIQUE constraint: it succeeds whenever the
      directory can be accessed and read. */
  lemma ScanSucceeds(t: Table, resolve: string -> string, dirPath: string, disk: Disk, now: string)
    requires WellFormed(t) && Resolved(ScanDir(resolve, dirPath))
    requires disk.accessible && disk.listing.Some? && GoodListing(disk.listing.value)
    ensures Scan(t, resolve, dirPath, disk, now).result == Success(Tally(disk.listing.value))
  {
    var dir := ScanDir(resolve, dirPath);
    MarkKeepsWellFormed(t, dir);
    UpsertAllOnWellFormed(MarkChildren(t, dir), dir, disk.listing.value, now);
  }

  lemma SweepKeepsWellFormed(u: Table, dir: string)
    requires WellFormed(u)
    ensures WellFormed(Sweep(u, dir))
  {
    var r := Sweep(u, dir);
    forall k | k in r
      ensures RowWellFormed(k, r[k])
    {
      assert RowWellFormed(k, u[k]);
    }
  }

  /** A scan keeps the table well-formed, whichever way it ends. */
  lemma ScanKeepsWellFormed(t: Table, resolve: string -> string, dirPath: string, disk: Disk, now: string)
    requires WellFormed(t) && Resolved(ScanDir(resolve, dirPath))
    requires disk.listing.Some? ==> GoodListing(disk.listing.value)
    ensures WellFormed(Scan(t, resolve, dirPath, disk, now).table)
  {
    var dir := ScanDir(resolve, dirPath);
    MarkKeepsWellFormed(t, dir);
    if disk.accessible && disk.listing.Some? {
      var ls := disk.listing.value;
      UpsertAllOnWellFormed(MarkChildren(t, dir), dir, ls, now);
      SweepKeepsWellFormed(UpsertAll(MarkChildren(t, dir), dir, ls, now).table, dir);
    }
  }

  /** After a completed scan of a well-formed table, the rows under the
      directory are exactly the listed entries: a row has the directory as its
      parent if and only if its id is the id of a listed name. */
  lemma ScanChildrenExact(t: Table, resolve: string -> string, dirPath: string, disk: Disk, now: string)
    requires WellFormed(t) && Resolved(ScanDir(resolve, dirPath))
    requires disk.accessible && disk.listing.Some? && GoodListing(disk.listing.value)
    ensures var r := Scan(t, resolve, dirPath, disk, now).table;
      && (forall i :: 0 <= i < |disk.listing.value| ==>
            var k := ChildId(ScanDir(resolve, dirPath), disk.listing.value[i].name);
            k in r && r[k].parentPath == ScanDir(resolve, dirPath) && r[k].name == disk.listing.value[i].name)
      && (forall k :: k in r && r[k].parentPath == ScanDir(resolve, dirPath) ==>
            k in ListedIds(ScanDir(resolve, dirPath), disk.listing.value))
  {
    var dir := ScanDir(resolve, dirPath);
    var ls := disk.listing.value;
    ScanSucceeds(t, resolve, dirPath, disk, now);
    ScanKeepsWellFormed(t, resolve, dirPath, disk, now);
    var r := Scan(t, resolve, dirPath, disk, now).table;
    forall i | 0 <= i < |ls|
      ensures ChildId(dir, ls[i].name) in r
      ensures r[ChildId(dir, ls[i].name)].parentPath == dir && r[ChildId(dir, ls[i].name)].name == ls[i].name
    {
      var k := ChildId(dir, ls[i].name);
      assert RowWellFormed(k, r[k]);
      JoinPathInjective(r[k].parentPath, r[k].name, dir, ls[i].name);
    }
  }

  /** Refreshing twice with the same stat is refreshing once, whatever the
      mark in between. */
  lemma RefreshTwice(e: Entry, l: Listed, now: string, mark: Mark)
    ensures Refresh(Refresh(e, l, now).(lastScanned := mark), l, now) == Refresh(e, l, now)
  {
  }

  /** Every listed entry has a row that already carries its stat and this
      scan's mark. */
  predicate Current(r: Table, dir: string, ls: seq<Listed>, now: string) {
    forall i :: 0 <= i < |ls| ==>
      ChildId(dir, ls[i].name) in r
      && r[ChildId(dir, ls[i].name)] == Refresh(r[ChildId(dir, ls[i].name)], ls[i], now)
  }

  /** A completed scan of a well-formed table leaves the listing current. */
  lemma ScanMakesCurrent(t: Table, dir: string, ls: seq<Listed>, now: string)
    requires WellFormed(t) && Resolved(dir) && GoodListing(ls)
    ensures Current(Sweep(UpsertAll(MarkChildren(t, dir), dir, ls, now).table, dir), dir, ls, now)
  {
    var m := MarkChildren(t, dir);
    MarkKeepsWellFormed(t, dir);
    UpsertAllOnWellFormed(m, dir, ls, now);
    var u := UpsertAll(m, dir, ls, now).table;
    var r := Sweep(u, dir);
    forall i | 0 <= i < |ls|
      ensures ChildId(dir, ls[i].name) in r
      ensures r[ChildId(dir, ls[i].name)] == Refresh(r[ChildId(dir, ls[i].name)], ls[i], now)
    {
      var k := ChildId(dir, ls[i].name);
      var base := if k in m then m[k] else NewRow(dir, ls[i], now);
      assert u[k] == Refresh(base, ls[i], now);
      RefreshTwice(base, ls[i], now, ScannedAt(now));
    }
  }

  /** A table with the rows of `dir` stamped with the mark of a scan at
      `now`, every other row as it was. */
  function Restamp(r: Table, dir: string, now: string): Table {
    map k | k in r :: if r[k].parentPath == dir then r[k].(lastScanned := ScannedAt(now)) else r[k]
  }

  /** In a well-formed table a row whose id a listing of `dir` names lies in
      `dir`: a path determines its parent. */
  lemma ListedRowIsChild(r: Table, dir: string, ls: seq<Listed>, k: Id)
    requires WellFormed(r) && Resolved(dir) && GoodListing(ls)
    requires k in r && k in ListedIds(dir, ls)
    ensures r[k].parentPath == dir
  {
    var i :| 0 <= i < |ls| && k == ChildId(dir, ls[i].name);
    assert RowWellFormed(k, r[k]);
    JoinPathInjective(r[k].parentPath, r[k].name, dir, ls[i].name);
  }

  /** A scan of a well-formed table leaves every row of every other directory
      as it was, whichever way it ends. */
  lemma ScanKeepsOtherDirectories(t: Table, resolve: string -> string, dirPath: string, disk: Disk, now: string)
    requires WellFormed(t) && Resolved(ScanDir(resolve, dirPath))
    requires disk.listing.Some? ==> GoodListing(disk.listing.value)
    ensures OthersKept(t, Scan(t, resolve, dirPath, disk, now).table, ScanDir(resolve, dirPath), {})
  {
    var dir := ScanDir(resolve, dirPath);
    if disk.listing.Some? {
      forall k | k in t && k in ListedIds(dir, disk.listing.value)
        ensures t[k].parentPath == dir
      {
        ListedRowIsChild(t, dir, disk.listing.value, k);
      }
    }
  }

  /** Refreshing a current row with the same stat at another time only
      changes its mark, whatever the mark in between. */
  lemma RefreshLater(e: Entry, l: Listed, now: string, now2: string, mark: Mark)
    requires e == Refresh(e, l, now)
    ensures Refresh(e.(lastScanned := mark), l, now2) == e.(lastScanned := ScannedAt(now2))
  {
  }

  /** One row of a rescan, at any time, of a directory whose listing is
      current: restamped when it lies in the directory, kept otherwise. */
  lemma RescanRow(r: Table, u: Upserted, dir: string, ls: seq<Listed>, now: string, now2: string, k: Id)
    requires WellFormed(r) && Resolved(dir) && GoodListing(ls)
    requires UpsertedFrom(MarkChildren(r, dir), u, dir, ls, now2)
    requires Current(r, dir, ls, now)
    requires k in r && (r[k].parentPath == dir ==> k in ListedIds(dir, ls))
    ensures k in Sweep(u.table, dir) && Sweep(u.table, dir)[k] == Restamp(r, dir, now2)[k]
  {
    var m := MarkChildren(r, dir);
    if k in ListedIds(dir, ls) {
      ListedRowIsChild(r, dir, ls, k);
      var i :| 0 <= i < |ls| && k == ChildId(dir, ls[i].name);
      RefreshLater(r[k], ls[i], now, now2, m[k].lastScanned);
      assert u.table[k] == Refresh(m[k], ls[i], now2);
    } else {
      assert u.table[k] == m[k];
    }
  }

  /** A rescan, at any time, of a well-formed table whose listing is current
      and whose rows under the directory are all listed only restamps the
      directory's rows. */
  lemma RescanCurrent(r: Table, dir: string, ls: seq<Listed>, now: string, now2: string)
    requires WellFormed(r) && Resolved(dir) && GoodListing(ls)
    requires Current(r, dir, ls, now)
    requires forall k :: k in r && r[k].parentPath == dir ==> k in ListedIds(dir, ls)
    ensures Sweep(UpsertAll(MarkChildren(r, dir), dir, ls, now2).table, dir) == Restamp(r, dir, now2)
  {
    var m := MarkChildren(r, dir);
    MarkKeepsWellFormed(r, dir);
    UpsertAllOnWellFormed(m, dir, ls, now2);
    var u := UpsertAll(m, dir, ls, now2);
    var r2 := Sweep(u.table, dir);
    var r3 := Restamp(r, dir, now2);
    forall k | k in r3
      ensures k in r2 && r2[k] == r3[k]
    {
      RescanRow(r, u, dir, ls, now, now2, k);
    }
    assert ListedIds(dir, ls) <= r.Keys;
    assert r2.Keys <= r3.Keys;
    SameTable(r3, r2);
  }

  /** A table holding the same rows under the same ids and no others is the
      same table. */
  lemma SameTable(r: Table, r2: Table)
    requires forall k :: k in r ==> k in r2 && r2[k] == r[k]
    requires r2.Keys <= r.Keys
    ensures r2 == r
  {
  }

  /** Restamping with the time of the scan that made the listing current
      changes nothing. */
  lemma RestampCurrent(r: Table, dir: string, ls: seq<Listed>, now: string)
    requires Current(r, dir, ls, now)
    requires forall k :: k in r && r[k].parentPath == dir ==> k in ListedIds(dir, ls)
    ensures Restamp(r, dir, now) == r
  {
    var r3 := Restamp(r, dir, now);
    forall k | k in r
      ensures k in r3 && r3[k] == r[k]
    {
      if r[k].parentPath == dir {
        var i :| 0 <= i < |ls| && k == ChildId(dir, ls[i].name);
      }
    }
    SameTable(r, r3);
  }

  /** Rescanning an unchanged directory, at any later time, returns the same
      result and the same table except that the directory's rows carry the
      new scan's mark: tags, importance and stats of every row are kept. */
  lemma ScanRestamps(t: Table, resolve: string -> string, dirPath: string, disk: Disk, now: string, now2: string)
    requires WellFormed(t) && Resolved(ScanDir(resolve, dirPath))
    requires disk.accessible && disk.listing.Some? && GoodListing(disk.listing.value)
    ensures var r1 := Scan(t, resolve, dirPath, disk, now);
            Scan(r1.table, resolve, dirPath, disk, now2)
            == Scanned(Restamp(r1.table, ScanDir(resolve, dirPath), now2), r1.result)
  {
    var dir := ScanDir(resolve, dirPath);
    var ls := disk.listing.value;
    var r := Scan(t, resolve, dirPath, disk, now).table;
    ScanSucceeds(t, resolve, dirPath, disk, now);
    ScanKeepsWellFormed(t, resolve, dirPath, disk, now);
    ScanSucceeds(r, resolve, dirPath, disk, now2);
    ScanMakesCurrent(t, dir, ls, now);
    RescanCurrent(r, dir, ls, now, now2);
  }

  /** Rescanning an unchanged directory at the same timestamp changes nothing:
      every listed row is already confirmed with the same stat, and nothing
      unlisted is left under the directory to sweep. */
  lemma ScanIdempotent(t: Table, resolve: string -> string, dirPath: string, disk: Disk, now: string)
    requires WellFormed(t) && Resolved(ScanDir(resolve, dirPath))
    requires disk.accessible && disk.listing.Some? && GoodListing(disk.listing.value)
    ensures var r1 := Scan(t, resolve, dirPath, disk, now);
            Scan(r1.table, resolve, dirPath, disk, now) == r1
  {
    var dir := ScanDir(resolve, dirPath);
    var ls := disk.listing.value;
    var r := Scan(t, resolve, dirPath, disk, now).table;
    ScanRestamps(t, resolve, dirPath, disk, now, now);
    ScanSucceeds(t, resolve, dirPath, disk, now);
    ScanMakesCurrent(t, dir, ls, now);
    RestampCurrent(r, dir, ls, now);
  }

  /** `C:` is scanned as the root `C:\`, not as the current directory of
      drive C. */
  lemma BareDriveScansRoot(t: Table, resolve: string -> string, d: string, disk: Disk, now: string)
    requires IsBareDrive(d)
    ensures Scan(t, resolve, d, disk, now) == Scan(t, resolve, d + [Sep], disk, now)
  {
  }

  /** Scanning an empty directory removes every row under it and keeps every
      other row as it was. */
  lemma ScanOfEmptyDirectory(t: Table, resolve: string -> string, dirPath: string, now: string)
    ensures var dir := ScanDir(resolve, dirPath);
            Scan(t, resolve, dirPath, Disk(true, Some([])), now)
            == Scanned(map k | k in t && t[k].parentPath != dir :: t[k], Success(Stats(0, 0, 0)))
  {
    var dir := ScanDir(resolve, dirPath);
    assert UpsertAll(MarkChildren(t, dir), dir, [], now) == Upserted(MarkChildren(t, dir), None);
    SweepOfMarked(t, dir);
  }

  /** Marking a directory's rows and sweeping at once removes exactly them. */
  lemma SweepOfMarked(t: Table, dir: string)
    ensures Sweep(MarkChildren(t, dir), dir) == map k | k in t && t[k].parentPath != dir :: t[k]
  {
  }
}

=== FILE: scanner.dfy ===
/** `scanDirectory` of server/services/fileService.js: mark-and-sweep
    reconciliation of the catalog rows of one directory level with a directory
    listing.

    The filesystem is an input: whether the directory is accessible, and either
    the listing (one `Listed` per entry, with the entry's stat when `fs.stat`
    succeeded) or `None` when `readdir` failed. `path.resolve` is the parameter
    `resolve`; `CURRENT_TIMESTAMP` is the parameter `now`. */
module Scanner {
  import opened Wrappers
  import opened Catalog

  /** What `fs.stat` reports of an entry. */
  datatype Stat = Stat(size: int, mtime: string, birthtime: string)

  /** One entry of the directory listing. */
  datatype Listed = Listed(name: string, isDirectory: bool, stat: Option<Stat>)

  /** What the filesystem answers about the directory being scanned. */
  datatype Disk = Disk(accessible: bool, listing: Option<seq<Listed>>)

  /** The `stats` object the scan returns. */
  datatype Stats = Stats(files: nat, directories: nat, errors: nat)

  /** Why a scan throws: the access check failed, `readdir` failed, or an insert
      hit the UNIQUE constraint on `path`. */
  datatype ScanError = NotFound(message: string) | ReadFailed(dir: string) | PathTaken(path: string)

  /** The table after the scan, whether or not it threw: a scan that throws
      after the mark keeps its writes. */
  datatype Scanned = Scanned(table: Table, result: Result<Stats, ScanError>)

  /** The table after the upsert loop, and the error that stopped it, if any. */
  datatype Upserted = Upserted(table: Table, failure: Option<ScanError>)

  /** The message of the error the scan throws when the access check fails. */
  function NotFoundMessage(dir: string): string {
    "Directory not found: " + dir
  }

  /** The directory a scan of `dirPath` works on: the drive-letter rule, then
      `path.resolve`. */
  function ScanDir(resolve: string -> string, dirPath: string): string {
    resolve(WithDriveSep(dirPath))
  }

  /** The id of the row for entry `name` of directory `dir`. */
  function ChildId(dir: string, name: string): Id {
    Md5(JoinPath(dir, name))
  }

  /** Distinct names in one directory get distinct ids. */
  lemma ChildIdInjective(dir: string, n1: string, n2: string)
    requires ChildId(dir, n1) == ChildId(dir, n2)
    ensures n1 == n2
  {
    var p := DirPrefix(dir);
    assert (p + n1)[|p|..] == n1 && (p + n2)[|p|..] == n2;
  }

  /** The ids the listing names. */
  function ListedIds(dir: string, ls: seq<Listed>): set<Id> {
    set i | 0 <= i < |ls| :: ChildId(dir, ls[i].name)
  }

  function KindOf(l: Listed): Kind {
    if l.isDirectory then Directory else File
  }

  /** Size and timestamps of an entry: those of its stat, or 0 and NULL when
      `fs.stat` failed (the failure is swallowed). */
  function SizeOf(l: Listed): int {
    if l.stat.Some? then l.stat.value.size else 0
  }

  function MtimeOf(l: Listed): Option<string> {
    if l.stat.Some? then Some(l.stat.value.mtime) else None
  }

  function BirthtimeOf(l: Listed): Option<string> {
    if l.stat.Some? then Some(l.stat.value.birthtime) else None
  }

  /** The row carries the entry's stat: its size and times, or size 0 and
      NULL times when `fs.stat` failed. */
  predicate RecordsStat(e: Entry, l: Listed) {
    && e.size == (if l.stat.Some? then l.stat.value.size else 0)
    && e.mtime == (if l.stat.Some? then Some(l.stat.value.mtime) else None)
    && e.birthtime == (if l.stat.Some? then Some(l.stat.value.birthtime) else None)
  }

  /** Entry `i` is listed and no later entry has its name, so its upsert is
      the last one to write its row. In a real listing every entry is. */
  predicate LastOfName(ls: seq<Listed>, i: int) {
    0 <= i < |ls| && forall j :: i < j < |ls| ==> ls[j].name != ls[i].name
  }

  /** The INSERT branch of the upsert: default owner, empty permissions, summary
      and tags, importance `normal`. */
  function NewRow(dir: string, l: Listed, now: string): Entry {
    var path := JoinPath(dir, l.name);
    Entry(Md5(path), path, l.name, KindOf(l), SizeOf(l), MtimeOf(l), BirthtimeOf(l),
          "System", "", dir, "", "", "normal", ScannedAt(now))
  }

  /** The ON CONFLICT branch of the upsert: size, timestamps and scan mark. */
  function Refresh(e: Entry, l: Listed, now: string): Entry {
    e.(size := SizeOf(l), mtime := MtimeOf(l), birthtime := BirthtimeOf(l), lastScanned := ScannedAt(now))
  }

  /** `after` differs from `before` at most in size, timestamps and scan mark,
      and carries the mark of this scan. */
  predicate Refreshed(before: Entry, after: Entry, now: string) {
    after == before.(size := after.size, mtime := after.mtime, birthtime := after.birthtime,
                     lastScanned := ScannedAt(now))
  }

  /** A row the scan inserted for one of the listed entries. */
  predicate FreshRow(dir: string, ls: seq<Listed>, now: string, k: Id, e: Entry) {
    && e.id == k && e.parentPath == dir
    && e.tags == "" && e.importance == "normal" && e.lastScanned == ScannedAt(now)
    && e.owner == "System" && e.permissions == "" && e.summary == ""
    && exists i :: 0 <= i < |ls| && k == ChildId(dir, ls[i].name) && e.name == ls[i].name
                   && e.path == JoinPath(dir, ls[i].name) && e.kind == KindOf(ls[i])
  }

  predicate PathInUse(t: Table, path: string) {
    exists k :: k in t && t[k].path == path
  }

  /** `insertFile.run(...)` for one entry. */
  function Upsert(t: Table, dir: string, l: Listed, now: string): Result<Table, ScanError> {
    var id := ChildId(dir, l.name);
    if id in t then Success(t[id := Refresh(t[id], l, now)])
    else if PathInUse(t, JoinPath(dir, l.name)) then Failure(PathTaken(JoinPath(dir, l.name)))
    else Success(t[id := NewRow(dir, l, now)])
  }

  /** The upsert loop over the listing, in listing order; it stops at the first
      statement that throws. Rows are never removed; an existing row changes
      only in size, timestamps and mark, and only when listed; a new row is a
      fresh row for a listed entry; the loop stops only at a listed entry that
      has no row while another row holds its path; when it completes every listed entry
      has a row carrying this scan's mark, and the stat of the last entry of
      its name. */
  function UpsertAll(t: Table, dir: string, ls: seq<Listed>, now: string): (u: Upserted)
    ensures t.Keys <= u.table.Keys
    ensures forall k :: k in t ==>
              u.table[k] == t[k] || (k in ListedIds(dir, ls) && Refreshed(t[k], u.table[k], now))
    ensures forall k :: k in u.table && k !in t ==> FreshRow(dir, ls, now, k, u.table[k])
    ensures u.failure.None? ==>
              forall i :: 0 <= i < |ls| ==>
                ChildId(dir, ls[i].name) in u.table
                && u.table[ChildId(dir, ls[i].name)].lastScanned == ScannedAt(now)
    ensures u.failure.None? ==>
              forall i :: LastOfName(ls, i) ==> RecordsStat(u.table[ChildId(dir, ls[i].name)], ls[i])
    ensures u.failure.Some? ==> u.failure.value.PathTaken?
    ensures u.failure.Some? ==>
              exists i :: 0 <= i < |ls| && u.failure.value == PathTaken(JoinPath(dir, ls[i].name))
                          && ChildId(dir, ls[i].name) !in u.table && PathInUse(u.table, JoinPath(dir, ls[i].name))
    decreases |ls|
  {
    if |ls| == 0 then Upserted(t, None)
    else
      match Upsert(t, dir, ls[0], now)
      case Failure(e) => Upserted(t, Some(e))
      case Success(t1) =>
        var u := UpsertAll(t1, dir, ls[1..], now);
        UpsertAllStep(t, t1, u, dir, ls, now);
        if u.failure.Some? then
          var j :| 0 <= j < |ls[1..]| && u.failure.value == PathTaken(JoinPath(dir, ls[1..][j].name))
                   && ChildId(dir, ls[1..][j].name) !in u.table && PathInUse(u.table, JoinPath(dir, ls[1..][j].name));
          assert ls[1..][j] == ls[j + 1];
          u
        else
          StepStats(t, t1, u.table, dir, ls, now);
          u
  }

  /** The stat clause of `UpsertAll` through one step: a later entry of the
      same name rewrites the row; otherwise the first entry's upsert stays. */
  lemma StepStats(t: Table, t1: Table, u: Table, dir: string, ls: seq<Listed>, now: string)
    requires |ls| > 0 && Upsert(t, dir, ls[0], now) == Success(t1)
    requires t1.Keys <= u.Keys
    requires forall k :: k in t1 ==>
               u[k] == t1[k] || (k in ListedIds(dir, ls[1..]) && Refreshed(t1[k], u[k], now))
    requires forall i :: 0 <= i < |ls[1..]| ==> ChildId(dir, ls[1..][i].name) in u
    requires forall i :: LastOfName(ls[1..], i) ==> RecordsStat(u[ChildId(dir, ls[1..][i].name)], ls[1..][i])
    ensures forall i :: LastOfName(ls, i) ==>
              ChildId(dir, ls[i].name) in u && RecordsStat(u[ChildId(dir, ls[i].name)], ls[i])
  {
    forall i | LastOfName(ls, i)
      ensures ChildId(dir, ls[i].name) in u && RecordsStat(u[ChildId(dir, ls[i].name)], ls[i])
    {
      if i > 0 {
        LastOfNameTail(ls, i);
      } else {
        FirstNotRelisted(dir, ls);
      }
    }
  }

  lemma LastOfNameTail(ls: seq<Listed>, i: int)
    requires i > 0 && LastOfName(ls, i)
    ensures LastOfName(ls[1..], i - 1) && ls[1..][i - 1] == ls[i]
  {
    assert forall j :: i - 1 < j < |ls| - 1 ==> ls[1..][j] == ls[j + 1];
  }

  /** The first entry's id is listed again only under its own name. */
  lemma FirstNotRelisted(dir: string, ls: seq<Listed>)
    requires LastOfName(ls, 0)
    ensures ChildId(dir, ls[0].name) !in ListedIds(dir, ls[1..])
  {
    if ChildId(dir, ls[0].name) in ListedIds(dir, ls[1..]) {
      var j :| 0 <= j < |ls[1..]| && ChildId(dir, ls[0].name) == ChildId(dir, ls[1..][j].name);
      ChildIdInjective(dir, ls[0].name, ls[1..][j].name);
      assert false;
    }
  }

  /** The recursive step of `UpsertAll`: the first entry's upsert composed with
      the rest of the loop. */
  lemma UpsertAllStep(t: Table, t1: Table, u: Upserted, dir: string, ls: seq<Listed>, now: string)
    requires |ls| > 0 && Upsert(t, dir, ls[0], now) == Success(t1)
    requires t1.Keys <= u.table.Keys
    requires forall k :: k in t1 ==>
               u.table[k] == t1[k] || (k in ListedIds(dir, ls[1..]) && Refreshed(t1[k], u.table[k], now))
    requires forall k :: k in u.table && k !in t1 ==> FreshRow(dir, ls[1..], now, k, u.table[k])
    requires u.failure.None? ==>
               forall i :: 0 <= i < |ls[1..]| ==>
                 ChildId(dir, ls[1..][i].name) in u.table
                 && u.table[ChildId(dir, ls[1..][i].name)].lastScanned == ScannedAt(now)
    ensures t.Keys <= u.table.Keys
    ensures forall k :: k in t ==>
              u.table[k] == t[k] || (k in ListedIds(dir, ls) && Refreshed(t[k], u.table[k], now))
    ensures forall k :: k in u.table && k !in t ==> FreshRow(dir, ls, now, k, u.table[k])
    ensures u.failure.None? ==>
              forall i :: 0 <= i < |ls| ==>
                ChildId(dir, ls[i].name) in u.table
                && u.table[ChildId(dir, ls[i].name)].lastScanned == ScannedAt(now)
  {
    ListedIdsTail(dir, ls);
    StepKeeps(t, t1, u.table, dir, ls, now);
    StepFresh(t, t1, u.table, dir, ls, now);
    if u.failure.None? {
      StepMarks(t, t1, u.table, dir, ls, now);
    }
  }

  /** The ids of the first entry and of the rest are among those of the whole
      listing. */
  lemma ListedIdsTail(dir: string, ls: seq<Listed>)
    requires |ls| > 0
    ensures ChildId(dir, ls[0].name) in ListedIds(dir, ls)
    ensures ListedIds(dir, ls[1..]) <= ListedIds(dir, ls)
  {
    assert ChildId(dir, ls[0].name) == ChildId(dir, ls[0].name);
    forall k | k in ListedIds(dir, ls[1..])
      ensures k in ListedIds(dir, ls)
    {
      var i :| 0 <= i < |ls[1..]| && k == ChildId(dir, ls[1..][i].name);
      assert ls[1..][i] == ls[i + 1];
    }
  }

  lemma StepKeeps(t: Table, t1: Table, u: Table, dir: string, ls: seq<Listed>, now: string)
    requires |ls| > 0 && Upsert(t, dir, ls[0], now) == Success(t1)
    requires ChildId(dir, ls[0].name) in ListedIds(dir, ls)
    requires ListedIds(dir, ls[1..]) <= ListedIds(dir, ls)
    requires t1.Keys <= u.Keys
    requires forall k :: k in t1 ==>
               u[k] == t1[k] || (k in ListedIds(dir, ls[1..]) && Refreshed(t1[k], u[k], now))
    ensures t.Keys <= u.Keys
    ensures forall k :: k in t ==>
              u[k] == t[k] || (k in ListedIds(dir, ls) && Refreshed(t[k], u[k], now))
  {
  }

  lemma StepFresh(t: Table, t1: Table, u: Table, dir: string, ls: seq<Listed>, now: string)
    requires |ls| > 0 && Upsert(t, dir, ls[0], now) == Success(t1)
    requires forall k :: k in u && k !in t1 ==> FreshRow(dir, ls[1..], now, k, u[k])
    requires t1.Keys <= u.Keys
    requires forall k :: k in t1 ==>
               u[k] == t1[k] || (k in ListedIds(dir, ls[1..]) && Refreshed(t1[k], u[k], now))
    ensures forall k :: k in u && k !in t ==> FreshRow(dir, ls, now, k, u[k])
  {
    forall k | k in u && k !in t
      ensures FreshRow(dir, ls, now, k, u[k])
    {
      if k in t1 {
        assert k == ChildId(dir, ls[0].name) && t1[k] == NewRow(dir, ls[0], now);
        FreshRowHead(dir, ls, now, t1[k], u[k]);
      } else {
        FreshRowTail(dir, ls, now, k, u[k]);
      }
    }
  }

  /** The row inserted for the first entry, refreshed or not, is fresh. */
  lemma FreshRowHead(dir: string, ls: seq<Listed>, now: string, e0: Entry, e: Entry)
    requires |ls| > 0 && e0 == NewRow(dir, ls[0], now)
    requires e == e0 || Refreshed(e0, e, now)
    ensures FreshRow(dir, ls, now, e0.id, e)
  {
    assert e0.name == ls[0].name;
  }

  /** A fresh row for the rest of the listing is fresh for the listing. */
  lemma FreshRowTail(dir: string, ls: seq<Listed>, now: string, k: Id, e: Entry)
    requires |ls| > 0 && FreshRow(dir, ls[1..], now, k, e)
    ensures FreshRow(dir, ls, now, k, e)
  {
    var i :| 0 <= i < |ls[1..]| && k == ChildId(dir, ls[1..][i].name) && e.name == ls[1..][i].name
             && e.path == JoinPath(dir, ls[1..][i].name) && e.kind == KindOf(ls[1..][i]);
    assert ls[1..][i] == ls[i + 1];
  }

  lemma StepMarks(t: Table, t1: Table, u: Table, dir: string, ls: seq<Listed>, now: string)
    requires |ls| > 0 && Upsert(t, dir, ls[0], now) == Success(t1)
    requires t1.Keys <= u.Keys
    requires forall k :: k in t1 ==>
               u[k] == t1[k] || (k in ListedIds(dir, ls[1..]) && Refreshed(t1[k], u[k], now))
    requires forall i :: 0 <= i < |ls[1..]| ==>
               ChildId(dir, ls[1..][i].name) in u
               && u[ChildId(dir, ls[1..][i].name)].lastScanned == ScannedAt(now)
    ensures forall i :: 0 <= i < |ls| ==>
              ChildId(dir, ls[i].name) in u && u[ChildId(dir, ls[i].name)].lastScanned == ScannedAt(now)
  {
    forall i | 0 <= i < |ls|
      ensures ChildId(dir, ls[i].name) in u
      ensures u[ChildId(dir, ls[i].name)].lastScanned == ScannedAt(now)
    {
      if i > 0 {
        assert ls[1..][i - 1] == ls[i];
      }
    }
  }

  /** `UPDATE files SET last_scanned = 0 WHERE parent_path = ?`. */
  function MarkChildren(t: Table, dir: string): Table {
    map k | k in t :: if t[k].parentPath == dir then t[k].(lastScanned := Unconfirmed) else t[k]
  }

  /** `DELETE FROM files WHERE parent_path = ? AND last_scanned = 0`. */
  function Sweep(t: Table, dir: string): Table {
    map k | k in t && !(t[k].parentPath == dir && t[k].lastScanned == Unconfirmed) :: t[k]
  }

  /** Whether each listed entry is a directory, in listing order. */
  function DirFlags(ls: seq<Listed>): seq<bool> {
    seq(|ls|, i requires 0 <= i < |ls| => ls[i].isDirectory)
  }

  /** The flags of a non-empty listing: its head's, then its tail's. */
  lemma FlagsCons(ls: seq<Listed>)
    requires |ls| > 0
    ensures multiset(DirFlags(ls)) == multiset{ls[0].isDirectory} + multiset(DirFlags(ls[1..]))
  {
    assert DirFlags(ls) == [ls[0].isDirectory] + DirFlags(ls[1..]);
  }

  /** The `files`/`directories` counters: one per listed entry, by kind; a
      failed stat does not count as an error. */
  function Tally(ls: seq<Listed>): (s: Stats)
    ensures s.directories == multiset(DirFlags(ls))[true]
    ensures s.files == multiset(DirFlags(ls))[false]
    ensures s.files + s.directories == |ls|
    ensures s.errors == 0
    ensures s.directories == |ls| <==> forall i :: 0 <= i < |ls| ==> ls[i].isDirectory
    ensures s.files == |ls| <==> forall i :: 0 <= i < |ls| ==> !ls[i].isDirectory
  {
    if |ls| == 0 then Stats(0, 0, 0)
    else
      var s := Tally(ls[1..]);
      assert forall i :: 1 <= i < |ls| ==> ls[i] == ls[1..][i - 1];
      FlagsCons(ls);
      if ls[0].isDirectory then s.(directories := s.directories + 1)
      else s.(files := s.files + 1)
  }


  /** Every row of `t` that `r` keeps differs at most in size, timestamps and
      mark: owner, permissions, summary, tags and importance survive. */
  predicate KeepsMetadata(t: Table, r: Table) {
    forall k :: k in t && k in r ==>
      r[k] == t[k].(size := r[k].size, mtime := r[k].mtime, birthtime := r[k].birthtime,
                    lastScanned := r[k].lastScanned)
  }

  /** Every row `r` has and `t` lacks is a fresh row for a listed entry. */
  predicate OnlyFreshRows(t: Table, r: Table, dir: string, ls: seq<Listed>, now: string) {
    forall k :: k in r && k !in t ==> FreshRow(dir, ls, now, k, r[k])
  }

  /** Rows outside `dir` whose id is not in `touched` are kept as they were. */
  predicate OthersKept(t: Table, r: Table, dir: string, touched: set<Id>) {
    forall k :: k in t && t[k].parentPath != dir && k !in touched ==> k in r && r[k] == t[k]
  }

  /** After a completed scan every listed entry has a row, and every row of the
      directory carries this scan's stamp (one `now` for the whole scan, where
      the service stamps each entry's statement separately) and belongs to a
      listed entry. */
  predicate Confirmed(r: Table, dir: string, ls: seq<Listed>, now: string) {
    && (forall i :: 0 <= i < |ls| ==> ChildId(dir, ls[i].name) in r)
    && (forall k :: k in r && r[k].parentPath == dir ==> r[k].lastScanned == ScannedAt(now))
    && (forall k :: k in r && r[k].parentPath == dir ==> k in ListedIds(dir, ls))
  }

  lemma MarkFacts(t: Table, dir: string)
    ensures KeepsMetadata(t, MarkChildren(t, dir))
    ensures MarkChildren(t, dir).Keys == t.Keys
    ensures OthersKept(t, MarkChildren(t, dir), dir, {})
  {
  }

  lemma UpsertFacts(t: Table, dir: string, ls: seq<Listed>, now: string)
    ensures var u := UpsertAll(MarkChildren(t, dir), dir, ls, now);
      && KeepsMetadata(t, u.table)
      && OnlyFreshRows(t, u.table, dir, ls, now)
      && OthersKept(t, u.table, dir, ListedIds(dir, ls))
      && t.Keys <= u.table.Keys
  {
    var m := MarkChildren(t, dir);
    var u := UpsertAll(m, dir, ls, now);
    MarkedFacts(t, dir);
    UpsertOverMarked(t, m, u.table, dir, ListedIds(dir, ls), now);
  }

  /** Marking keeps every row and changes at most the mark of the
      directory's rows. */
  lemma MarkedFacts(t: Table, dir: string)
    ensures MarkChildren(t, dir).Keys == t.Keys
    ensures forall k :: k in t ==> MarkChildren(t, dir)[k] == t[k].(lastScanned := MarkChildren(t, dir)[k].lastScanned)
    ensures forall k :: k in t && t[k].parentPath != dir ==> MarkChildren(t, dir)[k] == t[k]
  {
  }

  /** What the upsert loop guarantees about the marked table, carried back to
      the table before marking. */
  lemma UpsertOverMarked(t: Table, m: Table, u: Table, dir: string, ids: set<Id>, now: string)
    requires m.Keys == t.Keys
    requires forall k :: k in t ==> m[k] == t[k].(lastScanned := m[k].lastScanned)
    requires forall k :: k in t && t[k].parentPath != dir ==> m[k] == t[k]
    requires m.Keys <= u.Keys
    requires forall k :: k in m ==> u[k] == m[k] || (k in ids && Refreshed(m[k], u[k], now))
    ensures KeepsMetadata(t, u)
    ensures OthersKept(t, u, dir, ids)
    ensures t.Keys <= u.Keys
  {
  }

  lemma SweepFacts(t: Table, u: Table, dir: string, ls: seq<Listed>, now: string)
    requires KeepsMetadata(t, u) && OnlyFreshRows(t, u, dir, ls, now)
    requires OthersKept(t, u, dir, ListedIds(dir, ls))
    ensures KeepsMetadata(t, Sweep(u, dir))
    ensures OnlyFreshRows(t, Sweep(u, dir), dir, ls, now)
    ensures OthersKept(t, Sweep(u, dir), dir, ListedIds(dir, ls))
  {
    var r := Sweep(u, dir);
    forall k | k in t && t[k].parentPath != dir && k !in ListedIds(dir, ls)
      ensures k in r && r[k] == t[k]
    {
      assert u[k] == t[k];
    }
  }

  /** A completed upsert loop followed by the sweep confirms the listing. */
  lemma SweepConfirms(t: Table, dir: string, ls: seq<Listed>, now: string)
    requires UpsertAll(MarkChildren(t, dir), dir, ls, now).failure.None?
    ensures Confirmed(Sweep(UpsertAll(MarkChildren(t, dir), dir, ls, now).table, dir), dir, ls, now)
  {
    var u := UpsertAll(MarkChildren(t, dir), dir, ls, now).table;
    var r := Sweep(u, dir);
    forall i | 0 <= i < |ls|
      ensures ChildId(dir, ls[i].name) in r
    {
      var k := ChildId(dir, ls[i].name);
      assert k in u && u[k].lastScanned == ScannedAt(now);
    }
    forall k | k in r && r[k].parentPath == dir
      ensures r[k].lastScanned == ScannedAt(now)
      ensures k in ListedIds(dir, ls)
    {
      assert r[k] == u[k];
    }
  }

  /** After a completed upsert loop, the sweep keeps every listed row as the
      loop wrote it. */
  lemma SweepStats(t: Table, dir: string, ls: seq<Listed>, now: string)
    requires UpsertAll(MarkChildren(t, dir), dir, ls, now).failure.None?
    ensures var r := Sweep(UpsertAll(MarkChildren(t, dir), dir, ls, now).table, dir);
            forall i :: LastOfName(ls, i) ==>
              ChildId(dir, ls[i].name) in r && RecordsStat(r[ChildId(dir, ls[i].name)], ls[i])
  {
    var u := UpsertAll(MarkChildren(t, dir), dir, ls, now).table;
    forall i | LastOfName(ls, i)
      ensures ChildId(dir, ls[i].name) in Sweep(u, dir)
      ensures RecordsStat(Sweep(u, dir)[ChildId(dir, ls[i].name)], ls[i])
    {
      var k := ChildId(dir, ls[i].name);
      assert k in u && u[k].lastScanned == ScannedAt(now);
    }
  }

  /** `scanDirectory(dirPath)`.

      The access check comes first: when it fails the table is untouched and
      the error names the resolved directory. Otherwise the directory's rows are
      marked; when `readdir` fails the marks stay and nothing is swept;
      otherwise each entry is upserted and the rows of the directory still
      marked are deleted. An entry whose path another row already holds stops
      the pass with that path's error, before the sweep: a failed scan deletes
      no row. A completed scan leaves each listed entry's row with
      the entry's stat (with the last entry's, should a name repeat). Through
      every path the scan keeps the user metadata
      of every row it keeps, adds only fresh rows for listed entries, and
      leaves rows of other directories that the listing does not name as they
      were. */
  function Scan(t: Table, resolve: string -> string, dirPath: string, disk: Disk, now: string): (r: Scanned)
    ensures !disk.accessible ==>
              r.table == t && r.result == Failure(NotFound("Directory not found: " + ScanDir(resolve, dirPath)))
    ensures disk.accessible && disk.listing.None? ==>
              r.result == Failure(ReadFailed(ScanDir(resolve, dirPath)))
              && r.table == MarkChildren(t, ScanDir(resolve, dirPath))
    ensures r.result.Success? ==>
              && disk.listing.Some?
              && r.result.value == Tally(disk.listing.value)
              && Confirmed(r.table, ScanDir(resolve, dirPath), disk.listing.value, now)
    ensures r.result.Success? ==>
              forall i :: LastOfName(disk.listing.value, i) ==>
                RecordsStat(r.table[ChildId(ScanDir(resolve, dirPath), disk.listing.value[i].name)],
                            disk.listing.value[i])
    ensures r.result.Failure? && disk.accessible && disk.listing.Some? ==> r.result.error.PathTaken?
    ensures r.result.Failure? && disk.accessible && disk.listing.Some? ==>
              exists i :: 0 <= i < |disk.listing.value|
                && r.result.error == PathTaken(JoinPath(ScanDir(resolve, dirPath), disk.listing.value[i].name))
                && ChildId(ScanDir(resolve, dirPath), disk.listing.value[i].name) !in r.table
                && PathInUse(r.table, JoinPath(ScanDir(resolve, dirPath), disk.listing.value[i].name))
    ensures r.result.Failure? ==> t.Keys <= r.table.Keys
    ensures KeepsMetadata(t, r.table)
    ensures disk.listing.Some? ==> OnlyFreshRows(t, r.table, ScanDir(resolve, dirPath), disk.listing.value, now)
    ensures OthersKept(t, r.table, ScanDir(resolve, dirPath),
                       if disk.listing.Some? then ListedIds(ScanDir(resolve, dirPath), disk.listing.value) else {})
  {
    var dir := ScanDir(resolve, dirPath);
    if !disk.accessible then Scanned(t, Failure(NotFound(NotFoundMessage(dir))))
    else
      var marked := MarkChildren(t, dir);
      MarkFacts(t, dir);
      match disk.listing
      case None => Scanned(marked, Failure(ReadFailed(dir)))
      case Some(ls) =>
        var u := UpsertAll(marked, dir, ls, now);
        UpsertFacts(t, dir, ls, now);
        if u.failure.Some? then Scanned(u.table, Failure(u.failure.value))
        else
          SweepFacts(t, u.table, dir, ls, now);
          SweepConfirms(t, dir, ls, now);
          SweepStats(t, dir, ls, now);
          Scanned(Sweep(u.table, dir), Success(Tally(ls)))
  }
}

=== FILE: sql_like.dfy ===
/** SQLite's `LIKE` operator as the search query uses it: `%` matches any run
    of characters, `_` exactly one, every other pattern character matches itself
    ignoring ASCII case, and there is no escape character. */
module SqlLike {
  import opened Text

  /** Lower-case a single character, ASCII letters only (SQLite's default
      `LIKE` folds no other letters). */
  function Fold(c: char): char {
    CaseChar(ToLower, c)
  }

  /** `s LIKE p`. */
  predicate Like(s: string, p: string)
    decreases |s| + |p|
  {
    if |p| == 0 then |s| == 0
    else if p[0] == '%' then Like(s, p[1..]) || (|s| > 0 && Like(s[1..], p))
    else |s| > 0 && (p[0] == '_' || Fold(p[0]) == Fold(s[0])) && Like(s[1..], p[1..])
  }

  /** A pattern piece without wildcards. */
  predicate Literal(q: string) {
    forall i :: 0 <= i < |q| ==> q[i] != '%' && q[i] != '_'
  }

  /** The pattern `%q%` the search binds for a query `q`. */
  function Around(q: string): string {
    "%" + q + "%"
  }

  /** A lone `%` matches every text. */
  lemma {:induction false} LikeAnything(s: string)
    ensures Like(s, "%")
    decreases |s|
  {
    if |s| > 0 {
      LikeAnything(s[1..]);
    }
  }

  /** A leading `%` lets the rest of the pattern match any suffix. */
  lemma {:induction false} LikeLeadingPercent(s: string, rest: string)
    ensures Like(s, "%" + rest) <==> exists i :: 0 <= i <= |s| && Like(s[i..], rest)
    decreases |s|
  {
    var p := "%" + rest;
    assert p[1..] == rest;
    assert s[0..] == s;
    if |s| > 0 {
      LikeLeadingPercent(s[1..], rest);
      if Like(s[1..], p) {
        var j :| 0 <= j <= |s[1..]| && Like(s[1..][j..], rest);
        assert s[1..][j..] == s[j + 1..];
      }
      if exists i :: 0 <= i <= |s| && Like(s[i..], rest) {
        var i :| 0 <= i <= |s| && Like(s[i..], rest);
        if i > 0 {
          assert s[1..][i - 1..] == s[i..];
        }
      }
    }
  }

  /** Case-insensitive equality of two texts of the same length. */
  predicate FoldEq(a: string, b: string) {
    |a| == |b| && forall i :: 0 <= i < |a| ==> Fold(a[i]) == Fold(b[i])
  }

  lemma FoldEqLower(a: string, b: string)
    ensures FoldEq(a, b) <==> Lower(a) == Lower(b)
  {
    if Lower(a) == Lower(b) {
      assert forall i :: 0 <= i < |a| ==> Lower(a)[i] == Fold(a[i]);
    }
  }

  /** A literal pattern prefix matches a case-insensitively equal prefix. */
  lemma {:induction false} LikeLiteralPrefix(s: string, q: string, rest: string)
    requires Literal(q)
    ensures Like(s, q + rest) <==> |q| <= |s| && FoldEq(s[..|q|], q) && Like(s[|q|..], rest)
    decreases |q|
  {
    if |q| == 0 {
      assert q + rest == rest;
      assert s[0..] == s;
    } else {
      var p := q + rest;
      assert p[0] == q[0] && p[1..] == q[1..] + rest;
      LikeLiteralPrefix(if |s| > 0 then s[1..] else s, q[1..], rest);
      if 0 < |s| && |q| <= |s| {
        assert s[1..][|q| - 1..] == s[|q|..];
        assert s[1..][..|q| - 1] == s[..|q|][1..];
      }
    }
  }

  /** For a query without wildcards, `x LIKE '%q%'` holds exactly when the
      lower-cased query occurs in the lower-cased text. */
  lemma LikeAroundContains(s: string, q: string)
    requires Literal(q)
    ensures Like(s, Around(q)) <==> Contains(Lower(s), Lower(q))
  {
    var p := Around(q);
    assert p == "%" + (q + "%");
    LikeLeadingPercent(s, q + "%");
    ContainsAt(Lower(s), Lower(q));
    forall i | 0 <= i <= |s|
      ensures Like(s[i..], q + "%") <==> OccursAt(Lower(s), Lower(q), i)
    {
      LikeAt(s, q, i);
    }
    if exists i :: OccursAt(Lower(s), Lower(q), i) {
      var i :| OccursAt(Lower(s), Lower(q), i);
      assert 0 <= i <= |s|;
    }
  }

  /** `q%` matches the text from `i` on exactly when `q` occurs at `i`,
      ignoring case. */
  lemma LikeAt(s: string, q: string, i: nat)
    requires Literal(q) && i <= |s|
    ensures Like(s[i..], q + "%") <==> OccursAt(Lower(s), Lower(q), i)
  {
    var t := s[i..];
    LikeLiteralPrefix(t, q, "%");
    if |q| <= |t| {
      LikeAnything(t[|q|..]);
      var w := s[i..i + |q|];
      assert t[..|q|] == w;
      FoldEqLower(w, q);
      LowerSlice(s, i, i + |q|);
    }
  }

  /** Lower-casing commutes with slicing. */
  lemma LowerSlice(s: string, i: nat, j: nat)
    requires i <= j <= |s|
    ensures Lower(s)[i..j] == Lower(s[i..j])
  {
  }
}

=== FILE: text.dfy ===
/** String primitives of the JavaScript runtime that the catalog and the client
    helpers are built from: ASCII case mapping, `trim`, `split` on a character
    class (one separator per cut, or runs of separators), `join`, substring
    containment and the byte-wise ordering SQLite uses for text. */
module Text {

  // ---------------------------------------------------------------------------
  // Case mapping (ASCII letters only)
  // ---------------------------------------------------------------------------

  /** Which way letters are mapped. */
  datatype CaseMap = ToLower | ToUpper

  function CaseChar(m: CaseMap, c: char): char {
    match m
    case ToLower => if 'A' <= c <= 'Z' then (c as int + 32) as char else c
    case ToUpper => if 'a' <= c <= 'z' then (c as int - 32) as char else c
  }

  /** `toLowerCase()` / `toUpperCase()` restricted to ASCII letters. */
  function Case(m: CaseMap, s: string): string {
    seq(|s|, i requires 0 <= i < |s| => CaseChar(m, s[i]))
  }

  function Lower(s: string): string { Case(ToLower, s) }

  function Upper(s: string): string { Case(ToUpper, s) }

  /** A case mapping forgets any earlier one. */
  lemma CaseOfCase(m: CaseMap, n: CaseMap, s: string)
    ensures Case(m, Case(n, s)) == Case(m, s)
  {
    assert forall i :: 0 <= i < |s| ==> Case(m, Case(n, s))[i] == Case(m, s)[i];
  }

  // ---------------------------------------------------------------------------
  // trim
  // ---------------------------------------------------------------------------

  /** The characters `String.prototype.trim` removes: WhiteSpace and
      LineTerminator of ECMAScript (tab, LF, VT, FF, CR, space, NBSP, BOM and
      the Unicode space separators). */
  const SpaceChars: seq<char> :=
    ['\t', '\n', '\U{000B}', '\U{000C}', '\r', ' ', '\U{00A0}', '\U{1680}',
     '\U{2000}', '\U{2001}', '\U{2002}', '\U{2003}', '\U{2004}', '\U{2005}',
     '\U{2006}', '\U{2007}', '\U{2008}', '\U{2009}', '\U{200A}',
     '\U{2028}', '\U{2029}', '\U{202F}', '\U{205F}', '\U{3000}', '\U{FEFF}']

  /** `c` is one of `chars`. */
  predicate Occurs(c: char, chars: seq<char>) {
    |chars| > 0 && (chars[0] == c || Occurs(c, chars[1..]))
  }

  predicate IsSpace(c: char) {
    Occurs(c, SpaceChars)
  }

  function TrimStart(s: string): (r: string)
    ensures |r| <= |s| && r == s[|s| - |r|..]
    ensures |r| > 0 ==> !IsSpace(r[0])
  {
    if |s| > 0 && IsSpace(s[0]) then TrimStart(s[1..]) else s
  }

  function TrimEnd(s: string): (r: string)
    ensures |r| <= |s| && r == s[..|r|]
    ensures |r| > 0 ==> !IsSpace(r[|r| - 1])
  {
    if |s| > 0 && IsSpace(s[|s| - 1]) then TrimEnd(s[..|s| - 1]) else s
  }

  /** Neither end of `s` is a space. */
  predicate Trimmed(s: string) {
    |s| > 0 ==> !IsSpace(s[0]) && !IsSpace(s[|s| - 1])
  }

  /** `String.prototype.trim`: the result neither starts nor ends with a space. */
  function Trim(s: string): (r: string)
    ensures Trimmed(r)
  {
    TrimEnd(TrimStart(s))
  }

  /** A string with no space at either end is its own trim. */
  lemma TrimOfTrimmed(s: string)
    requires Trimmed(s)
    ensures Trim(s) == s
  {
  }

  // ---------------------------------------------------------------------------
  // split and join
  // ---------------------------------------------------------------------------

  /** No character of `s` is a separator. */
  predicate NoneIn(s: string, seps: set<char>) {
    forall i :: 0 <= i < |s| ==> s[i] !in seps
  }

  /** Index of the first separator of `s`, or `|s|` when there is none. */
  function FirstIn(s: string, seps: set<char>): (i: nat)
    ensures i <= |s|
    ensures i < |s| ==> s[i] in seps
  {
    if |s| == 0 || s[0] in seps then 0 else 1 + FirstIn(s[1..], seps)
  }

  /** No separator comes before the first one. */
  lemma {:induction false} NoneBeforeFirst(s: string, seps: set<char>)
    ensures NoneIn(s[..FirstIn(s, seps)], seps)
    decreases |s|
  {
    if |s| > 0 && s[0] !in seps {
      NoneBeforeFirst(s[1..], seps);
      assert s[..FirstIn(s, seps)] == [s[0]] + s[1..][..FirstIn(s[1..], seps)];
    }
  }

  /** A text free of separators has none to find. */
  lemma {:induction false} FirstInOfNoneIn(s: string, seps: set<char>)
    requires NoneIn(s, seps)
    ensures FirstIn(s, seps) == |s|
    decreases |s|
  {
    if |s| > 0 {
      FirstInOfNoneIn(s[1..], seps);
    }
  }

  /** The first separator is the one at `j` when none comes before it. */
  lemma {:induction false} FirstInAt(s: string, seps: set<char>, j: nat)
    requires j < |s| && s[j] in seps && NoneIn(s[..j], seps)
    ensures FirstIn(s, seps) == j
    decreases j
  {
    if j > 0 {
      assert s[0] == s[..j][0];
      assert s[1..][..j - 1] == s[..j][1..];
      FirstInAt(s[1..], seps, j - 1);
    }
  }

  /** `s.split(/[seps]/)`: every single separator ends a piece, so two adjacent
      separators yield an empty piece; the empty string yields `[""]`. */
  function Split(s: string, seps: set<char>): (parts: seq<string>)
    ensures |parts| >= 1
    ensures forall k :: 0 <= k < |parts| ==> NoneIn(parts[k], seps)
    decreases |s|
  {
    var i := FirstIn(s, seps);
    NoneBeforeFirst(s, seps);
    if i == |s| then [s] else [s[..i]] + Split(s[i + 1..], seps)
  }

  /** Drops the leading separators of `s`. */
  function DropSeps(s: string, seps: set<char>): (r: string)
    ensures |r| <= |s| && r == s[|s| - |r|..]
    ensures |r| > 0 ==> r[0] !in seps
  {
    if |s| > 0 && s[0] in seps then DropSeps(s[1..], seps) else s
  }

  /** `s.split(/[seps]+/)`: a maximal run of separators is one cut, so empty
      pieces arise only at the two ends. */
  function SplitRuns(s: string, seps: set<char>): (parts: seq<string>)
    ensures |parts| >= 1
    decreases |s|
  {
    var i := FirstIn(s, seps);
    if i == |s| then [s] else [s[..i]] + SplitRuns(DropSeps(s[i + 1..], seps), seps)
  }

  /** `parts.join(sep)`. */
  function Join(sep: string, parts: seq<string>): string {
    if |parts| == 0 then ""
    else if |parts| == 1 then parts[0]
    else parts[0] + sep + Join(sep, parts[1..])
  }

  /** Two parts join into the first, the separator and the second. */
  lemma JoinPair(sep: string, a: string, b: string)
    ensures Join(sep, [a, b]) == a + sep + b
  {
    assert [a, b][1..] == [b];
  }

  /** `parts.filter(Boolean)`: the non-empty pieces, in order. */
  function NonEmpty(parts: seq<string>): (r: seq<string>)
    ensures |r| <= |parts|
    ensures forall p :: p in r <==> p in parts && p != ""
  {
    if |parts| == 0 then []
    else (if parts[0] == "" then [] else [parts[0]]) + NonEmpty(parts[1..])
  }

  /** What cleaning keeps of one piece: nothing, or the piece trimmed. */
  function CleanOne(a: string): seq<string> {
    if Trim(a) == "" then [] else [Trim(a)]
  }

  /** `parts.map(t => t.trim()).filter(t => t.length > 0)`: each piece
      trimmed, the empty results dropped, in order. */
  function Clean(parts: seq<string>): seq<string> {
    if |parts| == 0 then [] else CleanOne(parts[0]) + Clean(parts[1..])
  }

  /** The last element of a non-empty sequence (`Array.prototype.pop`'s value). */
  function Last<T>(xs: seq<T>): T
    requires |xs| > 0
  {
    xs[|xs| - 1]
  }

  /** Every occurrence of `a` replaced by `b` (`s.replace(/a/g, b)`). */
  function ReplaceChar(s: string, a: char, b: char): string {
    seq(|s|, i requires 0 <= i < |s| => if s[i] == a then b else s[i])
  }

  /** Joining separator-free pieces with a character outside a set leaves
      the result free of that set. */
  lemma {:induction false} JoinNoneIn(parts: seq<string>, c: char, seps: set<char>)
    requires c !in seps
    requires forall k :: 0 <= k < |parts| ==> NoneIn(parts[k], seps)
    ensures NoneIn(Join([c], parts), seps)
    decreases |parts|
  {
    if |parts| > 1 {
      JoinNoneIn(parts[1..], c, seps);
      var rest := Join([c], parts[1..]);
      assert Join([c], parts) == parts[0] + [c] + rest;
      forall i | 0 <= i < |Join([c], parts)|
        ensures Join([c], parts)[i] !in seps
      {
        if i > |parts[0]| {
          assert Join([c], parts)[i] == rest[i - |parts[0]| - 1];
        }
      }
    }
  }

  lemma LastOfCons<T>(x: T, xs: seq<T>)
    requires |xs| > 0
    ensures Last([x] + xs) == Last(xs)
  {
  }

  /** A text is what comes before position `i`, the character there, and what
      follows. */
  lemma AroundAt(s: string, i: nat)
    requires i < |s|
    ensures s == s[..i] + [s[i]] + s[i + 1..]
  {
  }

  /** `l` ends `s`, and is all of it or follows a separator. */
  predicate SepSuffix(l: string, s: string, seps: set<char>) {
    |l| <= |s| && l == s[|s| - |l|..] && (|l| < |s| ==> s[|s| - |l| - 1] in seps)
  }

  /** The last piece of a split is the text after the last separator. */
  lemma {:induction false} LastOfSplit(s: string, seps: set<char>)
    ensures SepSuffix(Last(Split(s, seps)), s, seps)
    decreases |s|
  {
    var i := FirstIn(s, seps);
    if i < |s| {
      var a, t := s[..i], s[i + 1..];
      NoneBeforeFirst(s, seps);
      AroundAt(s, i);
      LastOfSplitCons(s, a, s[i], t, seps);
      LastOfSplit(t, seps);
      SuffixStep(s, i, t, Last(Split(t, seps)), seps);
    } else {
      SplitsOfNoSep(s, seps);
    }
  }

  /** The last piece does not change when a first piece and a separator go. */
  lemma LastOfSplitCons(s: string, a: string, c: char, t: string, seps: set<char>)
    requires s == a + [c] + t && c in seps && NoneIn(a, seps)
    ensures Last(Split(s, seps)) == Last(Split(t, seps))
  {
    SplitCons(a, c, t, seps);
    LastOfCons(a, Split(t, seps));
  }

  /** A separator-preceded suffix of `t`, the text after a separator of `s`,
      is one of `s` too. */
  lemma SuffixStep(s: string, i: nat, t: string, l: string, seps: set<char>)
    requires i < |s| && t == s[i + 1..] && s[i] in seps
    requires SepSuffix(l, t, seps)
    ensures SepSuffix(l, s, seps)
  {
    SuffixOfSuffix(s, i + 1, l);
    if |l| < |t| {
      assert s[|s| - |l| - 1] == t[|t| - |l| - 1];
    }
  }

  /** A suffix of a suffix of `s` is a suffix of `s`. */
  lemma SuffixOfSuffix(s: string, j: nat, l: string)
    requires j <= |s| && |l| <= |s| - j && l == s[j..][|s| - j - |l|..]
    ensures l == s[|s| - |l|..]
  {
    assert forall k :: 0 <= k < |l| ==> l[k] == s[|s| - |l| + k];
  }

  /** A text without separators splits into itself alone. */
  lemma SplitOfNoneIn(s: string, seps: set<char>)
    requires NoneIn(s, seps)
    ensures Split(s, seps) == [s]
  {
    assert s[..|s|] == s;
  }

  /** Replacing every `a` leaves no `a` behind. */
  lemma ReplaceCharRemoves(s: string, a: char, b: char)
    requires a != b
    ensures NoneIn(ReplaceChar(s, a, b), {a})
  {
  }

  /** Splitting a text free of some characters gives pieces free of them. */
  lemma {:induction false} SplitKeepsNoneIn(s: string, seps: set<char>, absent: set<char>)
    requires NoneIn(s, absent)
    ensures forall k :: 0 <= k < |Split(s, seps)| ==> NoneIn(Split(s, seps)[k], absent)
    decreases |s|
  {
    var i := FirstIn(s, seps);
    if i < |s| {
      SplitKeepsNoneIn(s[i + 1..], seps, absent);
      var parts := Split(s, seps);
      assert parts == [s[..i]] + Split(s[i + 1..], seps);
      forall k | 0 <= k < |parts|
        ensures NoneIn(parts[k], absent)
      {
        if k > 0 {
          assert parts[k] == Split(s[i + 1..], seps)[k - 1];
        }
      }
    }
  }

  /** A separator the text does not hold does not change its split. */
  lemma {:induction false} SplitIgnoresAbsent(s: string, seps: set<char>, extra: set<char>)
    requires NoneIn(s, extra)
    ensures Split(s, seps + extra) == Split(s, seps)
    decreases |s|
  {
    var i := FirstIn(s, seps);
    NoneBeforeFirst(s, seps);
    if i < |s| {
      FirstInAt(s, seps + extra, i);
      assert NoneIn(s[i + 1..], extra);
      SplitIgnoresAbsent(s[i + 1..], seps, extra);
    } else {
      assert s[..i] == s;
      FirstInOfNoneIn(s, seps + extra);
    }
  }

  /** A separator-free piece and a separator in front add that piece in front. */
  lemma SplitCons(a: string, c: char, b: string, seps: set<char>)
    requires c in seps && NoneIn(a, seps)
    ensures Split(a + [c] + b, seps) == [a] + Split(b, seps)
  {
    var s := a + [c] + b;
    assert s[..|a|] == a;
    FirstInAt(s, seps, |a|);
    assert s[|a| + 1..] == b;
  }

  /** The same for runs: the separators after the first are skipped. */
  lemma SplitRunsCons(a: string, c: char, b: string, seps: set<char>)
    requires c in seps && NoneIn(a, seps)
    ensures SplitRuns(a + [c] + b, seps) == [a] + SplitRuns(DropSeps(b, seps), seps)
  {
    var s := a + [c] + b;
    assert s[..|a|] == a;
    FirstInAt(s, seps, |a|);
    assert s[|a| + 1..] == b;
  }

  /** Appending a separator and a separator-free piece appends one piece. */
  lemma {:induction false} SplitSnoc(a: string, c: char, b: string, seps: set<char>)
    requires c in seps && NoneIn(b, seps)
    ensures Split(a + [c] + b, seps) == Split(a, seps) + [b]
    decreases |a|
  {
    var i := FirstIn(a, seps);
    NoneBeforeFirst(a, seps);
    if i < |a| {
      var a1, a2 := a[..i], a[i + 1..];
      AroundAt(a, i);
      Regroup(a1, a[i], a2, c, b);
      SplitCons(a1, a[i], a2 + [c] + b, seps);
      SplitSnoc(a2, c, b, seps);
      SplitCons(a1, a[i], a2, seps);
      assert [a1] + (Split(a2, seps) + [b]) == ([a1] + Split(a2, seps)) + [b];
    } else {
      assert a[..i] == a;
      SplitCons(a, c, b, seps);
      SplitOfNoneIn(b, seps);
      SplitOfNoneIn(a, seps);
    }
  }

  lemma Regroup(a1: string, x: char, a2: string, c: char, b: string)
    ensures (a1 + [x] + a2) + [c] + b == a1 + [x] + (a2 + [c] + b)
  {
  }

  /** A join is empty only when there is nothing to join or a lone empty piece. */
  lemma JoinIsEmpty(sep: string, parts: seq<string>)
    requires sep != ""
    ensures Join(sep, parts) == "" <==> |parts| == 0 || (|parts| == 1 && parts[0] == "")
  {
  }

  /** Joining one more piece appends the separator and the piece. */
  lemma {:induction false} JoinSnoc(sep: string, parts: seq<string>, x: string)
    requires |parts| > 0
    ensures Join(sep, parts + [x]) == Join(sep, parts) + sep + x
    decreases |parts|
  {
    if |parts| > 1 {
      assert (parts + [x])[1..] == parts[1..] + [x];
      JoinSnoc(sep, parts[1..], x);
    }
  }

  /** Pieces that hold no separator survive a join-then-split unchanged. */
  lemma {:induction false} SplitOfJoin(parts: seq<string>, c: char, seps: set<char>)
    requires |parts| >= 1 && c in seps
    requires forall k :: 0 <= k < |parts| ==> NoneIn(parts[k], seps)
    ensures Split(Join([c], parts), seps) == parts
    decreases |parts|
  {
    if |parts| > 1 {
      var s := Join([c], parts);
      var rest := Join([c], parts[1..]);
      assert s == parts[0] + [c] + rest;
      assert s[..|parts[0]|] == parts[0];
      FirstInAt(s, seps, |parts[0]|);
      var i := FirstIn(s, seps);
      assert s[..i] == parts[0];
      assert s[i + 1..] == rest;
      SplitOfJoin(parts[1..], c, seps);
      assert Split(s, seps) == [parts[0]] + Split(rest, seps);
    }
  }

  /** Splitting on one character and joining with it restores the string. */
  lemma {:induction false} JoinOfSplit(s: string, c: char)
    ensures Join([c], Split(s, {c})) == s
    decreases |s|
  {
    var i := FirstIn(s, {c});
    if i < |s| {
      var rest := Split(s[i + 1..], {c});
      JoinOfSplit(s[i + 1..], c);
      assert Split(s, {c}) == [s[..i]] + rest;
      assert Join([c], [s[..i]] + rest) == s[..i] + [c] + Join([c], rest);
      assert s == s[..i] + [s[i]] + s[i + 1..];
    }
  }

  /** A join starts with its first piece. */
  lemma {:induction false} JoinStartsWithFirst(parts: seq<string>, sep: string)
    requires |parts| >= 1
    ensures |Join(sep, parts)| >= |parts[0]|
    ensures Join(sep, parts)[..|parts[0]|] == parts[0]
  {
    if |parts| > 1 {
      assert Join(sep, parts) == parts[0] + sep + Join(sep, parts[1..]);
    }
  }

  /** A join ends with its last piece. */
  lemma {:induction false} JoinEndsWithLast(parts: seq<string>, sep: string)
    requires |parts| >= 1
    ensures |Join(sep, parts)| >= |Last(parts)|
    ensures Join(sep, parts)[|Join(sep, parts)| - |Last(parts)|..] == Last(parts)
    decreases |parts|
  {
    if |parts| > 1 {
      var rest := Join(sep, parts[1..]);
      JoinEndsWithLast(parts[1..], sep);
      assert Last(parts[1..]) == Last(parts);
      assert Join(sep, parts) == (parts[0] + sep) + rest;
    }
  }

  /** The first and last characters of a join of non-empty end pieces. */
  lemma JoinEndChars(parts: seq<string>, sep: string)
    requires |parts| >= 1 && parts[0] != "" && Last(parts) != ""
    ensures var j := Join(sep, parts);
            |j| > 0 && j[0] == parts[0][0] && j[|j| - 1] == Last(parts)[|Last(parts)| - 1]
  {
    var j := Join(sep, parts);
    JoinStartsWithFirst(parts, sep);
    JoinEndsWithLast(parts, sep);
    assert j[0] == j[..|parts[0]|][0];
    assert j[|j| - 1] == j[|j| - |Last(parts)|..][|Last(parts)| - 1];
  }

  /** Joining non-empty pieces free of the separator neither starts nor ends
      with it. */
  lemma JoinedPlainEnds(parts: seq<string>, c: char, seps: set<char>)
    requires c in seps && Plain(parts, seps)
    ensures var j := Join([c], parts); j != "" ==> j[0] != c && j[|j| - 1] != c
  {
    if |parts| > 0 {
      assert Last(parts) == parts[|parts| - 1];
      JoinEndChars(parts, [c]);
    }
  }

  /** Leading separators contribute only empty pieces, which cleaning drops. */
  lemma {:induction false} CleanSplitDropSeps(t: string, seps: set<char>)
    ensures Clean(Split(t, seps)) == Clean(Split(DropSeps(t, seps), seps))
    decreases |t|
  {
    if |t| > 0 && t[0] in seps {
      assert FirstIn(t, seps) == 0;
      assert Split(t, seps) == [""] + Split(t[1..], seps);
      CleanCons("", Split(t[1..], seps));
      CleanSplitDropSeps(t[1..], seps);
    }
  }

  /** Cleaning a sequence with a known head. */
  lemma CleanCons(a: string, rest: seq<string>)
    ensures Clean([a] + rest) == CleanOne(a) + Clean(rest)
  {
    assert ([a] + rest)[1..] == rest;
  }

  /** Cleaning erases the difference between cutting at every separator and
      cutting at runs of separators. */
  lemma {:induction false} CleanRunsAgree(s: string, seps: set<char>)
    ensures Clean(SplitRuns(s, seps)) == Clean(Split(s, seps))
    decreases |s|
  {
    var i := FirstIn(s, seps);
    if i < |s| {
      var a, t := s[..i], s[i + 1..];
      NoneBeforeFirst(s, seps);
      AroundAt(s, i);
      CleanRunsAgree(DropSeps(t, seps), seps);
      CleanRunsAgreeCons(a, s[i], t, seps);
    } else {
      SplitsOfNoSep(s, seps);
    }
  }

  lemma SplitsOfNoSep(s: string, seps: set<char>)
    requires FirstIn(s, seps) == |s|
    ensures Split(s, seps) == [s] && SplitRuns(s, seps) == [s]
  {
  }

  /** The step of `CleanRunsAgree`: a first piece and a separator in front. */
  lemma CleanRunsAgreeCons(a: string, c: char, t: string, seps: set<char>)
    requires c in seps && NoneIn(a, seps)
    requires Clean(SplitRuns(DropSeps(t, seps), seps)) == Clean(Split(DropSeps(t, seps), seps))
    ensures Clean(SplitRuns(a + [c] + t, seps)) == Clean(Split(a + [c] + t, seps))
  {
    SplitRunsCons(a, c, t, seps);
    SplitCons(a, c, t, seps);
    CleanCons(a, SplitRuns(DropSeps(t, seps), seps));
    CleanCons(a, Split(t, seps));
    CleanSplitDropSeps(t, seps);
  }

  /** The empty text is one empty piece, which cleaning drops. */
  lemma CleanSplitEmpty(seps: set<char>)
    ensures Split("", seps) == [""] && Clean(Split("", seps)) == []
  {
    assert FirstIn("", seps) == 0;
    assert Trim("") == "";
    CleanCons("", []);
  }

  /** Cleaned pieces of `a`, a separator, then `b`: those of `a`, then those
      of `b`. */
  lemma CleanSplitCons(a: string, c: char, b: string, seps: set<char>)
    requires c in seps && NoneIn(a, seps)
    ensures Clean(Split(a + [c] + b, seps)) == Clean(Split(a, seps)) + Clean(Split(b, seps))
  {
    SplitCons(a, c, b, seps);
    SplitOfNoneIn(a, seps);
    CleanOfSingleCons(a, Split(b, seps));
  }

  /** Cleaning a first piece and the rest is cleaning each apart. */
  lemma CleanOfSingleCons(a: string, rest: seq<string>)
    ensures Clean([a] + rest) == Clean([a]) + Clean(rest)
  {
    CleanCons(a, rest);
    CleanCons(a, []);
    assert [a] + [] == [a];
  }

  /** Trimming never introduces a separator. */
  lemma TrimNoneIn(s: string, seps: set<char>)
    requires NoneIn(s, seps)
    ensures NoneIn(Trim(s), seps)
  {
    var t := TrimStart(s);
    assert NoneIn(t, seps);
  }

  /** Cleaned pieces are non-empty, trimmed, and free of any separator the
      input pieces were free of. */
  lemma {:induction false} CleanPieces(parts: seq<string>, seps: set<char>)
    requires forall k :: 0 <= k < |parts| ==> NoneIn(parts[k], seps)
    ensures forall p :: p in Clean(parts) ==> p != "" && Trimmed(p) && NoneIn(p, seps)
    decreases |parts|
  {
    if |parts| > 0 {
      TrimNoneIn(parts[0], seps);
      CleanPieces(parts[1..], seps);
      assert forall k :: 0 <= k < |parts[1..]| ==> parts[1..][k] == parts[k + 1];
    }
  }

  /** A sequence with no empty piece is its own `filter(Boolean)`. */
  lemma {:induction false} NonEmptyOfNonEmpty(parts: seq<string>)
    requires forall p :: p in parts ==> p != ""
    ensures NonEmpty(parts) == parts
  {
    if |parts| > 0 {
      assert parts[0] in parts;
      assert forall p :: p in parts[1..] ==> p in parts;
      NonEmptyOfNonEmpty(parts[1..]);
      assert [parts[0]] + parts[1..] == parts;
    }
  }

  /** Non-empty pieces free of the separators. */
  predicate Plain(parts: seq<string>, seps: set<char>) {
    forall k :: 0 <= k < |parts| ==> parts[k] != "" && NoneIn(parts[k], seps)
  }

  /** Pieces that are non-empty and trimmed; cleaning keeps them as they are. */
  predicate AllClean(parts: seq<string>) {
    forall p :: p in parts ==> p != "" && Trimmed(p)
  }

  /** Non-empty, trimmed, separator-free pieces are clean and plain. */
  lemma CleanAndPlain(parts: seq<string>, seps: set<char>)
    requires forall p :: p in parts ==> p != "" && Trimmed(p) && NoneIn(p, seps)
    ensures AllClean(parts) && Plain(parts, seps)
  {
    assert forall k :: 0 <= k < |parts| ==> parts[k] in parts;
  }

  /** Clean pieces are a fixed point of cleaning. */
  lemma {:induction false} CleanOfClean(parts: seq<string>)
    requires AllClean(parts)
    ensures Clean(parts) == parts
    decreases |parts|
  {
    if |parts| > 0 {
      var h, rest := parts[0], parts[1..];
      AllCleanSplits(parts);
      CleanOfClean(rest);
      CleanCons(h, rest);
    }
  }

  lemma AllCleanSplits(parts: seq<string>)
    requires AllClean(parts) && |parts| > 0
    ensures parts == [parts[0]] + parts[1..]
    ensures CleanOne(parts[0]) == [parts[0]] && AllClean(parts[1..])
  {
    assert parts[0] in parts;
    TrimOfTrimmed(parts[0]);
    assert forall p :: p in parts[1..] ==> p in parts;
  }

  /** No separator is an ASCII letter, so case mapping never creates or removes one. */
  predicate NoLetters(seps: set<char>) {
    forall c :: c in seps ==> !('a' <= c <= 'z' || 'A' <= c <= 'Z')
  }

  /** Case mapping applied to every piece. */
  function CaseAll(m: CaseMap, parts: seq<string>): seq<string> {
    seq(|parts|, k requires 0 <= k < |parts| => Case(m, parts[k]))
  }

  /** Case mapping commutes with splitting on separators that are not letters. */
  lemma {:induction false} SplitOfCase(m: CaseMap, s: string, seps: set<char>)
    requires NoLetters(seps)
    ensures Split(Case(m, s), seps) == CaseAll(m, Split(s, seps))
    decreases |s|
  {
    var cs := Case(m, s);
    FirstInOfCase(m, s, seps);
    var i := FirstIn(s, seps);
    if i < |s| {
      SplitAtFirst(s, i, seps);
      SplitAtFirst(cs, i, seps);
      CaseOfSlices(m, s, i);
      SplitOfCase(m, s[i + 1..], seps);
      CaseAllCons(m, s[..i], Split(s[i + 1..], seps));
    } else {
      SplitsOfNoSep(s, seps);
      SplitsOfNoSep(cs, seps);
      CaseAllCons(m, s, []);
    }
  }

  /** A text whose first separator is at `i` splits into what precedes it and
      the pieces of what follows. */
  lemma SplitAtFirst(s: string, i: nat, seps: set<char>)
    requires i < |s| && FirstIn(s, seps) == i
    ensures Split(s, seps) == [s[..i]] + Split(s[i + 1..], seps)
  {
  }

  lemma CaseOfSlices(m: CaseMap, s: string, i: nat)
    requires i < |s|
    ensures Case(m, s)[..i] == Case(m, s[..i])
    ensures Case(m, s)[i + 1..] == Case(m, s[i + 1..])
  {
  }

  lemma CaseAllCons(m: CaseMap, a: string, rest: seq<string>)
    ensures CaseAll(m, [a] + rest) == [Case(m, a)] + CaseAll(m, rest)
  {
  }

  lemma {:induction false} FirstInOfCase(m: CaseMap, s: string, seps: set<char>)
    requires NoLetters(seps)
    ensures FirstIn(Case(m, s), seps) == FirstIn(s, seps)
    decreases |s|
  {
    if |s| > 0 {
      assert Case(m, s)[0] == CaseChar(m, s[0]);
      assert Case(m, s)[1..] == Case(m, s[1..]);
      FirstInOfCase(m, s[1..], seps);
    }
  }

  /** `s.split(c).pop()`: the text after the last `c`, the whole text when
      there is no `c`. */
  function AfterLast(s: string, c: char): (r: string)
    ensures NoneIn(r, {c})
    ensures c !in s ==> r == s
    ensures c in s ==> exists i :: 0 <= i < |s| && s[i] == c && r == s[i + 1..]
  {
    var parts := Split(s, {c});
    var l := Last(parts);
    LastOfSplit(s, {c});
    if c in s then
      assert |l| < |s|;
      assert s[|s| - |l| - 1] == c;
      assert s[|s| - |l|..] == l;
      l
    else
      SplitOfNoneIn(s, {c});
      l
  }

  /** A separator and a piece free of it at the end make that piece the text
      after the last separator. */
  lemma AfterLastSnoc(a: string, c: char, b: string)
    requires NoneIn(b, {c})
    ensures AfterLast(a + [c] + b, c) == b
  {
    SplitSnoc(a, c, b, {c});
  }

  /** Case mapping commutes with taking the text after the last separator,
      when the separator is not a letter. */
  lemma AfterLastOfCase(m: CaseMap, s: string, c: char)
    requires NoLetters({c})
    ensures AfterLast(Case(m, s), c) == Case(m, AfterLast(s, c))
  {
    SplitOfCase(m, s, {c});
    var parts := Split(s, {c});
    assert Last(CaseAll(m, parts)) == Case(m, Last(parts));
  }

  // ---------------------------------------------------------------------------
  // Substring search and text ordering
  // ---------------------------------------------------------------------------

  /** `needle` occurs in `hay` as a contiguous substring. */
  predicate Contains(hay: string, needle: string)
    decreases |hay|
  {
    |needle| <= |hay| && (hay[..|needle|] == needle || (|hay| > 0 && Contains(hay[1..], needle)))
  }

  /** `needle` occurs in `hay` starting at offset `i`. */
  predicate OccursAt(hay: string, needle: string, i: int) {
    0 <= i <= |hay| - |needle| && hay[i..i + |needle|] == needle
  }

  /** `Contains` is occurrence at some offset, in both directions. */
  lemma {:induction false} ContainsAt(hay: string, needle: string)
    ensures Contains(hay, needle) <==> exists i :: OccursAt(hay, needle, i)
    decreases |hay|
  {
    if |needle| <= |hay| && hay[..|needle|] == needle {
      assert OccursAt(hay, needle, 0);
    } else if |needle| <= |hay| && |hay| > 0 {
      ContainsAt(hay[1..], needle);
      if exists i :: OccursAt(hay, needle, i) {
        var i :| OccursAt(hay, needle, i);
        assert i > 0;
        OccursShift(hay, needle, i - 1);
      }
      if Contains(hay[1..], needle) {
        var j :| OccursAt(hay[1..], needle, j);
        OccursShift(hay, needle, j);
      }
    }
  }

  /** An occurrence after the first character is one in the rest of the
      text, one position earlier. */
  lemma OccursShift(hay: string, needle: string, j: nat)
    requires |hay| > 0
    ensures OccursAt(hay, needle, j + 1) <==> OccursAt(hay[1..], needle, j)
  {
    if 0 <= j <= |hay| - 1 - |needle| {
      assert hay[1..][j..j + |needle|] == hay[j + 1..j + 1 + |needle|];
    }
  }

  /** Lexicographic order on character codes: SQLite's BINARY collation on
      UTF-8 text orders strings exactly this way. */
  predicate StrLt(a: string, b: string)
    decreases |a|
  {
    if |a| == 0 then |b| > 0
    else if |b| == 0 then false
    else if a[0] != b[0] then a[0] < b[0]
    else StrLt(a[1..], b[1..])
  }

  lemma {:induction false} StrLtIrreflexive(a: string)
    ensures !StrLt(a, a)
    decreases |a|
  {
    if |a| > 0 {
      StrLtIrreflexive(a[1..]);
    }
  }

  lemma {:induction false} StrLtTransitive(a: string, b: string, c: string)
    requires StrLt(a, b) && StrLt(b, c)
    ensures StrLt(a, c)
    decreases |a|
  {
    if |a| > 0 && |b| > 0 && |c| > 0 && a[0] == b[0] && b[0] == c[0] {
      StrLtTransitive(a[1..], b[1..], c[1..]);
    }
  }

  /** Distinct strings are comparable, and never both ways. */
  lemma {:induction false} StrLtTotal(a: string, b: string)
    ensures a != b <==> StrLt(a, b) || StrLt(b, a)
    ensures !(StrLt(a, b) && StrLt(b, a))
    decreases |a|
  {
    if |a| > 0 && |b| > 0 && a[0] == b[0] {
      StrLtTotal(a[1..], b[1..]);
      assert a == [a[0]] + a[1..];
      assert b == [b[0]] + b[1..];
    }
  }
}

=== FILE: wrappers.dfy ===
/** Optional values and success/failure results, as the rest of the model uses them
    in place of JavaScript's `null`/`undefined` and thrown exceptions. */
module Wrappers {

  /** A value that may be absent (`null` or `undefined` in the source). */
  datatype Option<+T> = None | Some(value: T) {

    /** The carried value, or `default` when there is none. */
    function GetOr(default: T): T {
      match this
      case Some(v) => v
      case None => default
    }
  }

  /** The outcome of an operation that either returns a value or fails. */
  datatype Result<+T, +E> = Success(value: T) | Failure(error: E)
}
